=== FILE: README.md ===
# ckanext-doi metadata pipeline, modelled in Dafny

This project models the metadata pipeline of the CKAN DOI extension in
`ckanext/doi/lib/metadata.py`. The pipeline turns a CKAN package dict into
the dict that the DataCite serialiser takes. It runs in two stages:

- `build_metadata_dict` derives every DataCite field from the package on its
  own. Each field has its own error handling, and a field that fails keeps
  its default or partial value and records its exception in an error dict.
  Then every registered IDoi plugin runs in turn over the metadata dict and
  the error dict. Finally the five required keys are checked. If any of
  them failed, the whole build fails with one aggregated error that names
  every failed key.
- `build_xml_dict` projects the metadata dict onto the serialiser's shape.
  It always emits the required keys, a fixed `types` block and the schema
  version. An optional key is emitted only when its value has a non-zero
  length. Each dates entry is copied with its `date` turned into a string.
  Finally the plugins' xml hooks run.

Modules:

- `Decimal` (decimal.dfy): digit strings, `str.isdecimal` and `str(int)`.
- `Text` (text.dfy): Python slicing, `str.split` on one separator, string order and `sorted` over a set of strings.
- `PyValue` (value.dfy): the loosely typed values a package dict holds, and the exceptions. It also models the built-ins the builder uses: `d[k]`, `d.get`, `len`, truthiness, iteration and `str`. Loops that append inside a `try` are also here.
- `Environment` (environment.dfy): the dict types, and everything the builder reads from outside the package. This covers the configuration, the clock, the locale, the site URL, the license register, `ast.literal_eval`, `date_or_none`, coordinate conversion and the plugins. All of these are fixed parameters of one call.
- `Fields` (fields.dfy): one function per DataCite field.
- `Metadata` (metadata.dfy): the assembly of the metadata and error dicts, the plugin fold and the verdict on the required keys.
- `Projection` (projection.dfy): `build_xml_dict`.
- `Scenarios` (scenarios.dfy): concrete packages taken through the model.

Python semantics are written out wherever they matter:

- An exception is a `Py` value, `Raise(exc)`.
- Each handler catches exactly the exceptions its `except` names. The geolocation `try` catches only ValueError, KeyError and IndexError.
- An exception that no handler catches ends the build as `Uncaught`.
- `type(x) == list` is distinguished from iterability, since tuples iterate but are not lists.
- `int(x / 1024)` truncates toward zero.
- Python strings compare by code point.

Edge cases of the code that the model keeps as written:

- `[:4]` of a date shorter than four characters is the whole date, so an all-digit `'202'` is taken whole as the year (`Scenarios.YearFromShortDate`).
- A date that is neither None nor a string fails the `isdecimal` test outside any `try`, and escapes the build.
- The required-key check only asks for non-None values. So an `author` literal that parses to something other than a list gives `creators == []` with no error, and `creators` does not fail the build.
- The geolocation, related-identifier and funding loops append inside their `try`, so a failure part-way through leaves the entries appended before it.
- Failures of the date helper are collected in a dict of their own that is never merged into the error dict.

## Model

| member | source | states |
|---|---|---|
| Decimal.IntToDecimal | ckanext/doi/lib/metadata.py:211 | `str(i)` is an optional minus sign followed by canonical digits, and reading it back gives `i` |
| Decimal.IntRoundTrip | ckanext/doi/lib/metadata.py:363 | every canonical integer literal is the `str` of the integer it denotes, so `str` on integers is a bijection onto canonical literals |
| Decimal.DecimalRoundTrip | ckanext/doi/lib/metadata.py:211 | every canonical digit string is the decimal rendering of its own value |
| Text.Take | ckanext/doi/lib/metadata.py:79 | `s[:n]` is a prefix of `s` of length `min(n, len(s))` |
| Text.Split | ckanext/doi/lib/metadata.py:108 | `str.split(',')` gives at least one piece and no piece contains a comma |
| Text.JoinSplit | ckanext/doi/lib/metadata.py:108 | joining the split pieces with the separator gives back the original string, so no character is lost or added |
| Text.SplitJoin | ckanext/doi/lib/metadata.py:108 | splitting a join of comma-free pieces gives back exactly those pieces, empty ones included |
| Text.SortedTags | ckanext/doi/lib/metadata.py:114 | `sorted({t for t in tags if t != ''})` is strictly increasing in code-point order and holds exactly the non-empty tags |
| Text.StrictlySortedUnique | ckanext/doi/lib/metadata.py:114 | two strictly sorted sequences with the same elements are equal, so the sorted enumeration of a set of strings is unique |
| PyValue.ReadKeys | ckanext/doi/lib/metadata.py:56-66 | reading a list of keys from a value succeeds exactly when it is a dict holding all of them; otherwise KeyError for a dict and TypeError for anything else |
| PyValue.UpdateExisting | ckanext/doi/lib/metadata.py:400-401 | assigning an existing key keeps the dict's size and key order, stores the new value, and leaves every other key's value alone |
| PyValue.Subscript | ckanext/doi/lib/metadata.py:184 | `v[key]` succeeds exactly on a dict that has the key; a dict without it raises KeyError and any other value TypeError |
| PyValue.DictGet | ckanext/doi/lib/metadata.py:209 | `v.get(key)` succeeds exactly on dicts, gives the stored value or None, and raises AttributeError otherwise |
| PyValue.Truthy | ckanext/doi/lib/metadata.py:209 | a value with a length is true exactly when the length is non-zero, and None is false |
| PyValue.Iterate | ckanext/doi/lib/metadata.py:298 | iteration succeeds exactly on values with a length, yields that many items, yields the items of a list or tuple, the one-character strings of a string and the keys of a dict, and raises TypeError otherwise |
| PyValue.Show | ckanext/doi/lib/metadata.py:363 | `str` leaves strings unchanged, renders an integer as a literal that reads back to it, and renders None as `None` |
| PyValue.MapUntilFailure | ckanext/doi/lib/metadata.py:195-200 | a loop that appends inside a `try` keeps exactly the results of the iterations before the first exception, and stops at the item that raised it |
| PyValue.MapAll | ckanext/doi/lib/metadata.py:55-66 | a list built by a loop succeeds exactly when every item succeeds, and then holds every item's result in order |
| Fields.AuthorRecord | ckanext/doi/lib/metadata.py:56-66 | a creator dict carries the author's name and name type, a one-element `affiliation` list with the affiliation's name, identifier and scheme, a one-element `nameIdentifiers` list with the identifier and its scheme, and a `contributorType` exactly when built for a contributor |
| Fields.AuthorEntry | ckanext/doi/lib/metadata.py:126-137 | an author dict converts exactly when it has all seven author keys; otherwise KeyError for a dict and TypeError for anything else; name, name type, affiliation, name identifiers and role each come from the matching author keys |
| Fields.AuthorList | ckanext/doi/lib/metadata.py:50-69 | a parse failure or a bad author leaves `[]` with the error, never a partial list; a non-list literal leaves `[]` with no error; otherwise each author converts, in order |
| Fields.Titles | ckanext/doi/lib/metadata.py:72 | one title entry holding the package's `title`, or None when it has none |
| Fields.PublicationYear | ckanext/doi/lib/metadata.py:77-83 | the build survives the year test exactly when the date is None or a string; a string year is a decimal prefix of the date of at most four characters; the prefix of up to four characters is the year when it is all digits; otherwise it is the current year; a list or tuple raises AttributeError and any other value TypeError |
| Fields.TagName | ckanext/doi/lib/metadata.py:110 | a dict tag contributes the value under `name` and raises KeyError when it has none; any other tag contributes itself |
| Fields.TagList | ckanext/doi/lib/metadata.py:108-112 | the tags can be collected exactly when `tag_string` is a string, `tags` is iterable and every dict entry has a `name`; the error is AttributeError, TypeError or KeyError in that order; the tags are the split pieces in order followed by the name of each `tags` entry in order |
| Fields.TagStrings | ckanext/doi/lib/metadata.py:114 | the tags can be sorted exactly when every one is a string, and then they are the collected tags in order |
| Fields.Subjects | ckanext/doi/lib/metadata.py:105-117 | the subjects are recorded as failed exactly when the tags cannot be collected or sorted, and then they are `[]` |
| Fields.SubjectsCollectTags | ckanext/doi/lib/metadata.py:107-115 | collected without error, the subjects wrap a strictly sorted list, and a string is in it exactly when it is non-empty and is a split piece of `tag_string` or the name of a `tags` entry |
| Fields.SubjectsAreSortedTags | ckanext/doi/lib/metadata.py:113-115 | the subjects are `{'subject': t}` for the one strictly sorted enumeration of the distinct non-empty tags |
| Fields.DateEntry | ckanext/doi/lib/metadata.py:145-153 | a dates entry exists exactly when the date helper accepts the raw value, and it is then `{'dateType': type, 'date': date_or_none(raw)}` |
| Fields.Dates | ckanext/doi/lib/metadata.py:142-172 | there is one entry per readable date among created, modified and (only when the key exists) published, never an error, every entry has a `date`, and the entries are the created, updated and issued ones in that order |
| Fields.DatesInOrder | ckanext/doi/lib/metadata.py:142-172 | the `Created` entry comes first, `Updated` next and `Issued` last, each holding what the date helper made of its field, and an unreadable date only moves the later entries up |
| Fields.Language | ckanext/doi/lib/metadata.py:174-179 | the language is the locale's; when reading the locale raises, the language stays `''` and the exception is recorded |
| Fields.AlternateIdentifiers | ckanext/doi/lib/metadata.py:181-189 | the identifier fails with KeyError exactly when the package has no `id`; otherwise it is the URL permalink `<site>/dataset/<str(id)>`, the id itself when it is a string |
| Fields.RelatedEntry | ckanext/doi/lib/metadata.py:196-200 | a related resource converts exactly when it has both keys; the identifier comes from its URL, with the fixed type `URL` and its relation type |
| Fields.RelatedIdentifiers | ckanext/doi/lib/metadata.py:191-202 | a parse failure gives `[]` and the error; a non-list gives `[]`; otherwise the entries before the first bad resource are kept next to the error, and all are kept when none is bad |
| Fields.Resources | ckanext/doi/lib/metadata.py:209 | a falsy `resources`, missing included, iterates as nothing; a truthy one is iterated as Python does, a list as its items |
| Fields.SizeOf | ckanext/doi/lib/metadata.py:209 | a resource must be a dict; a missing or falsy size counts as `0`, and a truthy size counts as itself |
| Fields.Sum | ckanext/doi/lib/metadata.py:211 | `sum` succeeds exactly when every summand is a number |
| Fields.SumOfInts | ckanext/doi/lib/metadata.py:211 | the sum of integer sizes is their arithmetic sum |
| Fields.Kilobytes | ckanext/doi/lib/metadata.py:211 | the kilobyte count is the quotient by 1024 truncated toward zero, for totals of either sign |
| Fields.Sizes | ckanext/doi/lib/metadata.py:205-214 | the sizes fail exactly when the total cannot be computed, and then they are `[]`; otherwise there is one entry `'<n> kb'` whose number reads back to the truncated kilobytes of the total |
| Fields.KeepTruthy | ckanext/doi/lib/metadata.py:221 | `filter(None, ...)` keeps exactly the truthy formats |
| Fields.Dedup | ckanext/doi/lib/metadata.py:219-220 | `list(set(...))` holds each value exactly once and no other value |
| Fields.Formats | ckanext/doi/lib/metadata.py:216-228 | the formats succeed exactly when every resource is a dict and every truthy format is hashable; then they are the distinct truthy formats; otherwise `[]` |
| Fields.LicenseId | ckanext/doi/lib/metadata.py:236-238 | `license_id` wins unless it is missing or None; then `license` is used, and then `''` |
| Fields.RightsList | ckanext/doi/lib/metadata.py:239-252 | the CC-BY-4.0 international id, and only it, gives the SPDX entry; a registered other id gives its URL and id; an unregistered non-empty id gives `[]`; and exactly `''` or None gives `[{'rights': id}]` |
| Fields.Descriptions | ckanext/doi/lib/metadata.py:257-261 | one description of type `Other` holding the package's `notes`, or `''` when it has none |
| Fields.FeatureStep | ckanext/doi/lib/metadata.py:269-274 | a feature yields at most one entry, and one only when its geometry has the wanted type; a feature of another type yields nothing; a missing `geometry`, `type` or `coordinates` raises, as does the converter; a feature of the wanted type yields the converted coordinates |
| Fields.Features | ckanext/doi/lib/metadata.py:268 | the features are `location_data['features']` iterated, a package without `location_data` raises KeyError, and a `location_data` whose `features` cannot be read raises what that subscript raises |
| Fields.Reached | ckanext/doi/lib/metadata.py:268-276 | the loop gets through exactly the features before the first one whose step raises |
| Fields.GeoLoop | ckanext/doi/lib/metadata.py:267-276 | when the features cannot be read nothing is appended and that exception stops the loop; otherwise the entries of every feature before the first failing one are kept, and the loop stops with that feature's exception, or with none after the last feature |
| Fields.GeoFeatures | ckanext/doi/lib/metadata.py:266-291 | the loop escapes the build exactly when it stops on an exception the handler does not catch; otherwise the geolocations are the entries of the features before the failing one, with the caught exception recorded exactly when a feature or the feature list failed |
| Fields.GeoLocations | ckanext/doi/lib/metadata.py:263-291 | `point` runs the feature loop for `Point` geometries with the point converter and `area` runs it for `Polygon` geometries with the box converter; any other location choice gives `[]` with no error; a chosen type without `location_data` gives `[]` with KeyError; whatever escapes is not one of the caught exceptions |
| Fields.FunderIdentifierType | ckanext/doi/lib/metadata.py:299-302 | the type becomes `Other` exactly when it is `Wikidata`, empty or already `Other`, and every other type passes through unchanged |
| Fields.FunderEntry | ckanext/doi/lib/metadata.py:299-305 | a funder converts exactly when it has all three keys, and then carries its name, its identifier and its mapped identifier type |
| Fields.FundingReferences | ckanext/doi/lib/metadata.py:293-307 | a missing or empty `funder` is skipped with no error; a parse failure gives `[]` and the error; a literal that cannot be iterated gives `[]` and TypeError; otherwise, iterating the literal (the items of a list or tuple, the keys of a dict, the characters of a string), the funders before the first bad one are kept next to the error, and all are kept when none is bad |
| Metadata.DeriveFields | ckanext/doi/lib/metadata.py:22-307 | the field derivations escape exactly when the year test or the geolocation loop raises something uncaught |
| Metadata.MetadataOf | ckanext/doi/lib/metadata.py:309-310 | the metadata dict holds every required and every optional key |
| Metadata.ErrorsOf | ckanext/doi/lib/metadata.py:43-307 | every field with its own handler has an error entry exactly when its derivation caught an exception, holding that exception; no other field has one, so among the required keys only `creators` can |
| Metadata.FoldMetadata | ckanext/doi/lib/metadata.py:312-317 | with no plugins the dicts are unchanged; otherwise the result is what the last plugin returns when given the dicts the earlier plugins produced |
| Metadata.FoldMetadataAppend | ckanext/doi/lib/metadata.py:312-317 | the plugins run in sequence, each seeing what the ones before it returned |
| Metadata.WithNullErrors | ckanext/doi/lib/metadata.py:319-321 | the null check adds a metadata error for every required key whose value is None, and it never overwrites an existing error |
| Metadata.FailedRequired | ckanext/doi/lib/metadata.py:323 | a required key fails exactly when it has an error or a None value |
| Metadata.Judge | ckanext/doi/lib/metadata.py:323-344 | the build fails exactly when some required key failed, naming exactly the failed keys; a success returns the metadata with every required key non-None |
| Metadata.OptionalErrorsIgnored | ckanext/doi/lib/metadata.py:323-332 | errors under optional keys never change the verdict |
| Metadata.BuildMetadata | ckanext/doi/lib/metadata.py:22-344 | the build escapes exactly when a derivation escapes; otherwise it fails exactly when a required key failed after the plugins, and names them all; a success is what the plugins returned, with every required key set |
| Metadata.VerdictWithoutPlugins | ckanext/doi/lib/metadata.py:319-332 | without plugins only `creators` (bad author literal), `publisher` (unset in the configuration) and `resourceType` (no package type) can fail, and the failure names exactly those that did |
| Metadata.FoldKeepsKeys | ckanext/doi/lib/metadata.py:312-317 | plugins that keep the key set leave the metadata dict's keys unchanged |
| Metadata.BuiltRecordHasEveryKey | ckanext/doi/lib/metadata.py:309-317 | a successful build holds every required and optional key, provided the plugins keep the key set |
| Projection.HasValue | ckanext/doi/lib/metadata.py:389-396 | an optional value passes exactly when it has a length and is truthy, so None and values without a length never pass |
| Projection.Types | ckanext/doi/lib/metadata.py:364-367 | `types` holds the metadata's resource type and the general type `Dataset` |
| Projection.StringifyDate | ckanext/doi/lib/metadata.py:400-401 | a dates entry projects exactly when it is a dict with a `date`; the copy keeps its keys in order, holds `str(date)` and leaves every other value alone; otherwise AttributeError or KeyError |
| Projection.StringifyDates | ckanext/doi/lib/metadata.py:397-403 | a value that cannot be iterated raises TypeError; otherwise the dates project exactly when every entry iterated from them does, and the result is a list of one copy per entry, in order |
| Projection.RequiredPart | ckanext/doi/lib/metadata.py:359-371 | the required part has exactly the six keys; `creators` and `titles` default to `[]` only when missing; the year is a string equal to a string year, and reading back to an integer year |
| Projection.PassedPart | ckanext/doi/lib/metadata.py:389-405 | an optional key other than `dates` passes exactly when its value has a non-zero length, and passes unchanged |
| Projection.ProjectBase | ckanext/doi/lib/metadata.py:359-405 | the projection fails only on bad dates; it always has the required keys and only known keys; an optional key is present exactly when it has a value; dates are stringified and the rest passes unchanged |
| Projection.FoldXml | ckanext/doi/lib/metadata.py:407-408 | with no plugins the xml dict is unchanged; otherwise it is what the last plugin's hook returns on the dict the earlier hooks produced |
| Projection.FoldXmlAppend | ckanext/doi/lib/metadata.py:407-408 | the xml hooks run in sequence, each seeing what the ones before it returned |
| Projection.BuildXml | ckanext/doi/lib/metadata.py:347-410 | the xml build fails exactly when the projection does, and otherwise is the projection after the plugins' hooks |
| Projection.DatesProjection | ckanext/doi/lib/metadata.py:397-403 | each projected dates entry is the original with the same keys, `date` stringified and every other value untouched |
| Projection.BuiltMetadataProjects | ckanext/doi/lib/metadata.py:142-172 | without plugins, every metadata dict the builder returns projects without error, because every dates entry it builds has a `date` |
| Projection.ProjectedYearOf | ckanext/doi/lib/metadata.py:363 | a string year projects unchanged and an integer year projects as its decimal rendering |
| Projection.BuiltYear | ckanext/doi/lib/metadata.py:77-83 | without plugins, the stored year is the one derived from the package |
| Projection.ProjectedYear | ckanext/doi/lib/metadata.py:78-83 | end to end without plugins, the emitted year is the digit prefix of the publication date when there is one, and the current year in decimal otherwise |
| Scenarios.YearFromIsoDate | ckanext/doi/lib/metadata.py:82-83 | `'2021-05-10'` gives the year `'2021'` |
| Scenarios.YearFallsBackToCurrentYear | ckanext/doi/lib/metadata.py:79-80 | `'abcd-05-10'` and a missing date give the current year |
| Scenarios.YearFromShortDate | ckanext/doi/lib/metadata.py:79 | the all-digit short date `'202'` is taken whole |
| Scenarios.YearFromIntegerDateRaises | ckanext/doi/lib/metadata.py:79 | an integer date cannot be sliced, and raises out of the build |
| Scenarios.ThreeResourcesTotal | ckanext/doi/lib/metadata.py:208-211 | sizes 1024, 2048 and None total 3072 bytes |
| Scenarios.SizesAddUp | ckanext/doi/lib/metadata.py:211 | that total is reported as `'3 kb'` |
| Scenarios.StringSizeIsAnError | ckanext/doi/lib/metadata.py:211-214 | a string size cannot be summed, so the sizes are `[]` with a TypeError |
| Scenarios.WikidataBecomesOther | ckanext/doi/lib/metadata.py:301-302 | `Wikidata` and `''` become `Other`, and a Crossref type passes through |
| Scenarios.RightsExamples | ckanext/doi/lib/metadata.py:236-252 | the CC-BY-4.0 international id gives the SPDX entry, also through the `license` fallback; no license at all gives `rights: ''` |
| Scenarios.SplitExample | ckanext/doi/lib/metadata.py:108 | `'b,a,,b'.split(',')` keeps the empty piece |
| Scenarios.TaggedPackageTags | ckanext/doi/lib/metadata.py:108-112 | the split pieces come before the names of the tag dicts |
| Scenarios.SubjectsExample | ckanext/doi/lib/metadata.py:113-115 | `'b,a,,b'` plus the tag `{'name': 'c'}` gives the subjects a, b, c |

## Left out

- Logging is not modelled. This covers the `log.exception` and `log.debug` calls, and the optional-error report at lines 334-342, which is guarded by the required-error test and so can never run after that test passed.
- Exception messages are not modelled. The aggregated failure is `Metadata.MissingRequired` with the set of failed keys, not the text that joins them.
- An error dict entry whose value is None is not modelled. Errors are a map from key to exception, so a plugin cannot store None under a key; Python's `errors.get(k) is None` test and the `required_errors` comprehension treat such an entry differently.
- Exceptions raised by plugins themselves are not modelled. Plugins are total functions on the metadata and error dicts.
- `ast.literal_eval`, `date_or_none`, `ckan.lib.helpers.lang`, `get_site_url`, the clock and the configuration are parameters of `Environment.Env`. Their own behaviour is not part of this model.
- Float handling of coordinates (`str(float(x))`) is not modelled. The point and box entries come from the `pointOf` and `boxOf` collaborators, and any exception they raise goes through the geolocation handler as in the source.
- The `except` around the rights list (lines 254-255) can never fire in the model: the register is a total map, so looking an id up cannot raise.
- The license register is modelled as a map from string ids to the license URL. A non-string id is never registered, so the model cannot record a TypeError that the register's lookup might raise for an unhashable id.
- Fields.Formats: the order of the formats is the order of first occurrence, while Python's `list(set(...))` uses hash order. Python also treats `1` and `True` as one set element, and the model keeps them apart.
- Fields.Sizes: floats are not modelled, so a float size raises TypeError in the model, while Python would sum it. `int(total / 1024)` is exact truncation, which matches Python only while the total is below 2**53 bytes.
- Fields.TagStrings: any non-string tag raises TypeError. Python fails when a tag is unhashable (a list, say) while the set is built, or when two set elements cannot be compared with `<`, such as a non-empty string tag next to a non-string one; `tags == [1, 2]` with no `tag_string` sorts to `[1, 2]` in Python.
- Fields.PublicationYear: a dict date raises TypeError, as slicing a dict does before Python 3.12. From 3.12 on, slices are hashable and the lookup raises KeyError instead. Either way the exception escapes the build.
- Fields.PublicationYear: `str.isdecimal` is modelled on ASCII digits only. Other Unicode decimal digits are not treated as digits.
- PyValue.Iterate: `Opaque` values (sets, floats, datetimes) are treated as not iterable and without a length, so `HasValue` never passes one through. `PyValue.Truthy` also treats every `Opaque` value as true, while Python's `0.0` and empty set are false; so `filter(None, ...)` keeps an empty-set format that Python would drop, and the model then raises TypeError on hashing it.
- The metadata, error and xml dicts are `map`s, so their insertion order is not modelled; nothing in the builder depends on it.
- Plugins receive the package dict as a value. A plugin that mutates `pkg_dict` in place, and the effect of that on later plugins, is not modelled.
- The `DOIMetadataException` class, `package_get_year`, and the rest of the extension (minting, the DataCite client, templates) are not part of this model.

=== FILE: decimal.dfy ===
/** Decimal digit strings: the `str.isdecimal()` test applied to the year
    prefix of a publication date, and Python's `str(int)` rendering used for
    the publication year and for the size in kilobytes. */
module Decimal {

  predicate IsDigit(c: char) { '0' <= c <= '9' }

  predicate AllDigits(s: string) { forall i :: 0 <= i < |s| ==> IsDigit(s[i]) }

  /** `str.isdecimal()` on ASCII text: non-empty, and every character a digit. */
  predicate IsDecimal(s: string) { |s| > 0 && AllDigits(s) }

  function DigitValue(c: char): nat
    requires IsDigit(c)
  {
    c as int - '0' as int
  }

  function DigitChar(d: nat): (c: char)
    requires d < 10
    ensures IsDigit(c) && DigitValue(c) == d
  {
    ('0' as int + d) as char
  }

  /** The number a digit string denotes, most significant digit first. */
  function ValueOf(s: string): nat
    requires AllDigits(s)
    decreases |s|
  {
    if |s| == 0 then 0 else ValueOf(s[..|s| - 1]) * 10 + DigitValue(s[|s| - 1])
  }

  /** The digit strings `str(n)` can produce: no leading zero except in "0". */
  predicate Canonical(s: string) { IsDecimal(s) && (s[0] == '0' ==> |s| == 1) }

  /** A digit string that starts with a non-zero digit denotes a positive number. */
  lemma {:induction false} LeadingDigitPositive(s: string)
    requires IsDecimal(s) && s[0] != '0'
    ensures ValueOf(s) > 0
    decreases |s|
  {
    if |s| > 1 {
      var p := s[..|s| - 1];
      assert p[0] == s[0];
      LeadingDigitPositive(p);
    }
  }

  /** A canonical digit string for a positive number has no leading zero. */
  lemma CanonicalPositive(s: string)
    requires Canonical(s) && ValueOf(s) > 0
    ensures s[0] != '0'
  {
    if |s| == 1 {
      assert s[..0] == [];
    }
  }

  /** `str(n)` for a non-negative integer. */
  function NatToDecimal(n: nat): (s: string)
    ensures Canonical(s)
    ensures ValueOf(s) == n
    decreases n
  {
    if n < 10 then
      var s := [DigitChar(n)];
      assert s[..0] == [];
      s
    else
      var prefix := NatToDecimal(n / 10);
      var s := prefix + [DigitChar(n % 10)];
      assert s[..|s| - 1] == prefix;
      CanonicalPositive(prefix);
      s
  }

  /** Reading a canonical digit string and rendering the number again gives
      back the same string. */
  lemma {:induction false} DecimalRoundTrip(s: string)
    requires Canonical(s)
    ensures NatToDecimal(ValueOf(s)) == s
    decreases |s|
  {
    if |s| == 1 {
      assert s[..0] == [];
      assert ValueOf(s) == DigitValue(s[0]);
    } else {
      var p := s[..|s| - 1];
      var c := s[|s| - 1];
      assert p[0] == s[0];
      LeadingDigitPositive(p);
      DecimalRoundTrip(p);
      var n := ValueOf(s);
      assert n == ValueOf(p) * 10 + DigitValue(c);
      assert n / 10 == ValueOf(p) && n % 10 == DigitValue(c);
      assert s == p + [c];
    }
  }

  /** The strings `str(i)` can produce for an integer `i`. */
  predicate IsIntLiteral(s: string)
  {
    Canonical(s) || (|s| > 1 && s[0] == '-' && Canonical(s[1..]) && s[1] != '0')
  }

  function IntValue(s: string): int
    requires IsIntLiteral(s)
  {
    if s[0] == '-' then -(ValueOf(s[1..]) as int) else ValueOf(s)
  }

  /** `str(i)` for any integer: a minus sign for negative numbers, then the
      digits of the magnitude. */
  function IntToDecimal(i: int): (s: string)
    ensures IsIntLiteral(s)
    ensures IntValue(s) == i
  {
    if i < 0 then
      var digits := NatToDecimal(-i);
      var s := "-" + digits;
      assert s[1..] == digits;
      CanonicalPositive(digits);
      s
    else
      NatToDecimal(i)
  }

  /** Every integer literal is the rendering of the integer it denotes. */
  lemma IntRoundTrip(s: string)
    requires IsIntLiteral(s)
    ensures IntToDecimal(IntValue(s)) == s
  {
    if s[0] == '-' {
      var digits := s[1..];
      LeadingDigitPositive(digits);
      DecimalRoundTrip(digits);
      assert s == "-" + digits;
    } else {
      DecimalRoundTrip(s);
    }
  }
}

=== FILE: environment.dfy ===
/** The dicts the builder passes around and the collaborators it consults.
    Everything the metadata module reads from outside the package dict (the
    CKAN configuration, the clock, the request's locale, the site URL, the
    license register, `ast.literal_eval`, the date helper, the float
    handling of coordinates and the registered IDoi plugins) is a field of
    `Env`, fixed for one call. */
module Environment {
  import opened PyValue

  /** A top-level dict with string keys: the package dict, the metadata dict
      and the dict handed to the DataCite serialiser. */
  type Record = map<string, Value>

  /** The per-field error dict: field key to the exception caught for it. */
  type Errors = map<string, Exc>

  /** `d.get(key)`: the stored value, or None when the key is missing. */
  function Get(d: Record, key: string): Value
  {
    if key in d then d[key] else Null
  }

  /** `d.get(key, default)`. A key stored with value None yields None, not
      the default. */
  function GetOr(d: Record, key: string, default: Value): Value
  {
    if key in d then d[key] else default
  }

  /** One IDoi implementation: its two hooks, each a pure function of what it
      is handed. `onMetadata(pkg, metadata, errors)` returns the new metadata
      and errors; `onXml(metadata, xml)` returns the new xml dict. */
  datatype Plugin = Plugin(
    onMetadata: (Record, Record, Errors) -> (Record, Errors),
    onXml: (Record, Record) -> Record)

  datatype Env = Env(
    /** `ast.literal_eval`: the parsed value, or the exception it raises. */
    literalEval: Value -> Py<Value>,
    /** `date_or_none` from the extension's helpers. */
    dateOrNone: Value -> Py<Value>,
    /** `str(v)` for values other than None, booleans, integers and strings. */
    render: Value -> string,
    /** The configuration option `ckanext.doi.publisher` (None when unset). */
    publisher: Value,
    /** `datetime.datetime.now().year`. */
    currentYear: int,
    /** `ckan.lib.helpers.lang()`, which may raise outside a request. */
    language: Py<Value>,
    /** `get_site_url()`. */
    siteUrl: string,
    /** CKAN's license register: license id to the license's URL. */
    licenses: map<string, Value>,
    /** The `geoLocationPoint` entry built from a Point's coordinates. */
    pointOf: Value -> Py<Value>,
    /** The `geoLocationBox` entry built from a Polygon's coordinates. */
    boxOf: Value -> Py<Value>,
    /** The IDoi implementations, in registration order. */
    plugins: seq<Plugin>)
}

=== FILE: fields.dfy ===
/** The field derivations of `build_metadata_dict`
    (ckanext/doi/lib/metadata.py:22-307). Each field is derived in isolation
    from the package dict: a failure is caught and recorded under the
    field's key, and the field keeps its default value (or, for the loops
    that append inside the `try`, what was appended before the failure). */
module Fields {
  import opened PyValue
  import opened Decimal
  import opened Text
  import opened Environment

  /** A derived field: the value left in the metadata dict and the exception
      recorded under the field's key, if one was caught. */
  datatype Derived = Derived(value: Value, error: Option<Exc>)

  const EmptyList: Value := List([])

  // ---------------------------------------------------------------- creators

  const AuthorKeys: seq<string> := [
    "author_name", "author_name_type", "author_affiliation",
    "author_affiliation_identifier", "author_affiliation_identifier_type",
    "author_identifier", "author_identifier_type"]

  /** The one-element `affiliation` list of a creator. */
  function Affiliation(name: Value, id: Value, scheme: Value): Value
  {
    List([Dict([
      Field("name", name),
      Field("affiliationIdentifier", id),
      Field("affiliationIdentifierScheme", scheme)])])
  }

  /** The one-element `nameIdentifiers` list of a creator. */
  function NameIdentifiers(id: Value, scheme: Value): Value
  {
    List([Dict([Field("nameIdentifier", id), Field("nameIdentifierScheme", scheme)])])
  }

  /** The creator dict from the seven author fields, in `AuthorKeys` order. */
  function AuthorRecord(vals: seq<Value>, role: Option<string>): (r: Value)
    requires |vals| == |AuthorKeys|
    ensures r.Dict?
    ensures Lookup(r.entries, "name") == Some(vals[0])
    ensures Lookup(r.entries, "nameType") == Some(vals[1])
    ensures Lookup(r.entries, "contributorType") == (if role.Some? then Some(Str(role.value)) else None)
    ensures Lookup(r.entries, "affiliation") == Some(Affiliation(vals[2], vals[3], vals[4]))
    ensures Lookup(r.entries, "nameIdentifiers") == Some(NameIdentifiers(vals[5], vals[6]))
  {
    var affiliation := Affiliation(vals[2], vals[3], vals[4]);
    var identifiers := NameIdentifiers(vals[5], vals[6]);
    RoleLookups(vals[0], role);
    CreatorLookups(RoleHead(vals[0], role), vals[1], affiliation, identifiers);
    Dict(RoleHead(vals[0], role) + CreatorTail(vals[1], affiliation, identifiers))
  }

  /** `name`, then `contributorType` when the author list is read for contributors. */
  function RoleHead(name: Value, role: Option<string>): seq<(Value, Value)>
  {
    [Field("name", name)] + (if role.Some? then [Field("contributorType", Str(role.value))] else [])
  }

  /** The keys every creator dict ends with. */
  function CreatorTail(nameType: Value, affiliation: Value, identifiers: Value): seq<(Value, Value)>
  {
    [Field("nameType", nameType), Field("affiliation", affiliation), Field("nameIdentifiers", identifiers)]
  }

  lemma RoleLookups(name: Value, role: Option<string>)
    ensures forall tail :: Lookup(RoleHead(name, role) + tail, "name") == Some(name)
    ensures role.Some? ==> forall tail :: Lookup(RoleHead(name, role) + tail, "contributorType") == Some(Str(role.value))
  {
    forall tail: seq<(Value, Value)> ensures Lookup(RoleHead(name, role) + tail, "name") == Some(name) {
      LookupAt(RoleHead(name, role) + tail, "name", 0);
    }
    if role.Some? {
      forall tail: seq<(Value, Value)>
        ensures Lookup(RoleHead(name, role) + tail, "contributorType") == Some(Str(role.value))
      {
        LookupAt(RoleHead(name, role) + tail, "contributorType", 1);
      }
    }
  }

  lemma CreatorLookups(head: seq<(Value, Value)>, nameType: Value, affiliation: Value, identifiers: Value)
    requires forall j :: 0 <= j < |head| ==> head[j].0 == Str("name") || head[j].0 == Str("contributorType")
    ensures Lookup(head + CreatorTail(nameType, affiliation, identifiers), "nameType") == Some(nameType)
    ensures Lookup(head + CreatorTail(nameType, affiliation, identifiers), "affiliation") == Some(affiliation)
    ensures Lookup(head + CreatorTail(nameType, affiliation, identifiers), "nameIdentifiers") == Some(identifiers)
    ensures (forall j :: 0 <= j < |head| ==> head[j].0 != Str("contributorType")) ==>
      Lookup(head + CreatorTail(nameType, affiliation, identifiers), "contributorType") == None
  {
    var tail := CreatorTail(nameType, affiliation, identifiers);
    TailLookups(nameType, affiliation, identifiers);
    LookupPast(head, tail, "nameType");
    LookupPast(head, tail, "affiliation");
    LookupPast(head, tail, "nameIdentifiers");
    if forall j :: 0 <= j < |head| ==> head[j].0 != Str("contributorType") {
      LookupPast(head, tail, "contributorType");
    }
  }

  lemma TailLookups(nameType: Value, affiliation: Value, identifiers: Value)
    ensures Lookup(CreatorTail(nameType, affiliation, identifiers), "nameType") == Some(nameType)
    ensures Lookup(CreatorTail(nameType, affiliation, identifiers), "affiliation") == Some(affiliation)
    ensures Lookup(CreatorTail(nameType, affiliation, identifiers), "nameIdentifiers") == Some(identifiers)
    ensures Lookup(CreatorTail(nameType, affiliation, identifiers), "contributorType") == None
  {
    var tail := CreatorTail(nameType, affiliation, identifiers);
    assert tail[0].0 == Str("nameType") && tail[1].0 == Str("affiliation") && tail[2].0 == Str("nameIdentifiers");
    LookupAt(tail, "affiliation", 1);
    LookupAt(tail, "nameIdentifiers", 2);
  }

  /** `a[key]` for an author dict known to hold the key; None otherwise. */
  function AuthorField(a: Value, key: string): Value
  {
    if a.Dict? && Lookup(a.entries, key).Some? then Lookup(a.entries, key).value else Null
  }

  /** One DataCite creator (or, with a role, contributor) built from one
      author dict of the `author` literal. */
  function AuthorEntry(a: Value, role: Option<string>): (r: Py<Value>)
    ensures r.Ok? <==> HasKeys(a, AuthorKeys)
    ensures r.Raise? ==> r.exc == (if a.Dict? then KeyError else TypeError)
    ensures r.Ok? ==>
      && r.value.Dict?
      && Lookup(r.value.entries, "name") == Lookup(a.entries, "author_name")
      && Lookup(r.value.entries, "nameType") == Lookup(a.entries, "author_name_type")
      && Lookup(r.value.entries, "contributorType") == (if role.Some? then Some(Str(role.value)) else None)
      && Lookup(r.value.entries, "affiliation") == Some(Affiliation(
           AuthorField(a, "author_affiliation"),
           AuthorField(a, "author_affiliation_identifier"),
           AuthorField(a, "author_affiliation_identifier_type")))
      && Lookup(r.value.entries, "nameIdentifiers") == Some(NameIdentifiers(
           AuthorField(a, "author_identifier"), AuthorField(a, "author_identifier_type")))
  {
    var vals :- ReadKeys(a, AuthorKeys);
    Ok(AuthorRecord(vals, role))
  }

  /** The author list parsed from the `author` literal. A parse failure or a
      bad author dict leaves `[]` with the error; a literal that parses to
      anything but a list leaves `[]` with no error at all. */
  function AuthorList(pkg: Record, env: Env, role: Option<string>): (r: Derived)
    ensures r.value.List?
    ensures r.error.Some? ==> r.value == EmptyList
    ensures var parsed := env.literalEval(Get(pkg, "author"));
      && (parsed.Ok? && !parsed.value.List? ==> r == Derived(EmptyList, None))
      && (r.error.None? <==>
            parsed.Ok? && (parsed.value.List? ==>
              forall i :: 0 <= i < |parsed.value.items| ==> HasKeys(parsed.value.items[i], AuthorKeys)))
      && (parsed.Ok? && parsed.value.List? && r.error.None? ==>
            |r.value.items| == |parsed.value.items|
            && forall i :: 0 <= i < |r.value.items| ==>
                 AuthorEntry(parsed.value.items[i], role) == Ok(r.value.items[i]))
  {
    match env.literalEval(Get(pkg, "author"))
    case Raise(e) => Derived(EmptyList, Some(e))
    case Ok(parsed) =>
      if !parsed.List? then Derived(EmptyList, None)
      else
        match MapAll(parsed.items, a => AuthorEntry(a, role))
        case Ok(entries) => Derived(List(entries), None)
        case Raise(e) => Derived(EmptyList, Some(e))
  }

  function Creators(pkg: Record, env: Env): Derived
  {
    AuthorList(pkg, env, None)
  }

  function Contributors(pkg: Record, env: Env): Derived
  {
    AuthorList(pkg, env, Some("ContactPerson"))
  }

  // ------------------------------------------------- titles, type, publisher

  /** One title, the package's `title` or None when it has none. */
  function Titles(pkg: Record): (r: Value)
    ensures r.List? && |r.items| == 1 && r.items[0].Dict?
    ensures Lookup(r.items[0].entries, "title") == Some(if "title" in pkg then pkg["title"] else Null)
  {
    var entries := [Field("title", Get(pkg, "title"))];
    LookupAt(entries, "title", 0);
    List([Dict(entries)])
  }

  // -------------------------------------------------------- publication year

  /** The year: the first four characters of `doi_date_published` when they
      are all digits, else the current year. The test on the prefix runs
      outside any `try`, so a value that cannot be sliced or has no
      `isdecimal` raises out of the whole build. */
  function PublicationYear(pkg: Record, currentYear: int): (r: Py<Value>)
    ensures r.Ok? <==> Get(pkg, "doi_date_published") == Null || Get(pkg, "doi_date_published").Str?
    ensures r.Ok? && r.value.Str? ==>
      && Get(pkg, "doi_date_published").Str?
      && var date := Get(pkg, "doi_date_published").s;
         IsDecimal(r.value.s) && r.value.s <= date && (|r.value.s| == 4 || r.value.s == date)
    ensures r.Ok? && !r.value.Str? ==> r.value == Int(currentYear)
    ensures var d := Get(pkg, "doi_date_published");
      d.Str? && IsDecimal(Take(d.s, 4)) ==> r == Ok(Str(Take(d.s, 4)))
    ensures var d := Get(pkg, "doi_date_published");
      r.Raise? ==> r.exc == (if d.List? || d.Tuple? then AttributeError else TypeError)
    ensures var d := Get(pkg, "doi_date_published");
      r == Ok(Int(currentYear)) <== d == Null || (d.Str? && !IsDecimal(Take(d.s, 4)))
  {
    match Get(pkg, "doi_date_published")
    case Null => Ok(Int(currentYear))
    case Str(s) => if IsDecimal(Take(s, 4)) then Ok(Str(Take(s, 4))) else Ok(Int(currentYear))
    case List(_) => Raise(AttributeError)
    case Tuple(_) => Raise(AttributeError)
    case _ => Raise(TypeError)
  }

  // ---------------------------------------------------------------- subjects

  /** A `tags` entry: a dict contributes its `name`, anything else itself. */
  function TagName(t: Value): (r: Py<Value>)
    ensures r.Ok? <==> !t.Dict? || Lookup(t.entries, "name").Some?
    ensures r.Raise? ==> r.exc == KeyError
    ensures r.Ok? && t.Dict? ==> Lookup(t.entries, "name") == Some(r.value)
    ensures !t.Dict? ==> r == Ok(t)
  {
    if t.Dict? then Subscript(t, "name") else Ok(t)
  }

  /** `tag_string.split(',')` followed by the names of the `tags` entries. */
  function TagList(pkg: Record): (r: Py<seq<Value>>)
    ensures var tagString := GetOr(pkg, "tag_string", Str(""));
      var entries := Iterate(GetOr(pkg, "tags", List([])));
      r.Ok? <==> (tagString.Str? && entries.Ok?
                  && forall j :: 0 <= j < |entries.value| ==> TagName(entries.value[j]).Ok?)
    ensures var tagString := GetOr(pkg, "tag_string", Str(""));
      var entries := Iterate(GetOr(pkg, "tags", List([])));
      r.Raise? ==> r.exc == (if !tagString.Str? then AttributeError else if entries.Raise? then TypeError else KeyError)
    ensures r.Ok? ==>
      var parts := Split(GetOr(pkg, "tag_string", Str("")).s, ',');
      var entries := Iterate(GetOr(pkg, "tags", List([]))).value;
      && |r.value| == |parts| + |entries|
      && (forall i :: 0 <= i < |parts| ==> r.value[i] == Str(parts[i]))
      && (forall j :: 0 <= j < |entries| ==> TagName(entries[j]) == Ok(r.value[|parts| + j]))
  {
    var tagString := GetOr(pkg, "tag_string", Str(""));
    if !tagString.Str? then Raise(AttributeError)
    else
      var parts := Split(tagString.s, ',');
      var entries :- Iterate(GetOr(pkg, "tags", List([])));
      var names :- MapAll(entries, TagName);
      Ok(seq(|parts|, i requires 0 <= i < |parts| => Str(parts[i])) + names)
  }

  /** The tags as strings. A tag that is not a string cannot be put in one
      sorted set with the string tags: it raises TypeError. */
  function TagStrings(pkg: Record): (r: Py<seq<string>>)
    ensures r.Ok? <==> TagList(pkg).Ok? && forall i :: 0 <= i < |TagList(pkg).value| ==> TagList(pkg).value[i].Str?
    ensures r.Ok? ==>
      && |r.value| == |TagList(pkg).value|
      && forall i :: 0 <= i < |r.value| ==> TagList(pkg).value[i] == Str(r.value[i])
  {
    var tags :- TagList(pkg);
    if forall i :: 0 <= i < |tags| ==> tags[i].Str? then
      Ok(seq(|tags|, i requires 0 <= i < |tags| => tags[i].s))
    else Raise(TypeError)
  }

  function SubjectEntry(t: string): Value
  {
    Dict([Field("subject", Str(t))])
  }

  function SubjectEntries(ts: seq<string>): seq<Value>
  {
    seq(|ts|, i requires 0 <= i < |ts| => SubjectEntry(ts[i]))
  }

  function Subjects(pkg: Record): (r: Derived)
    ensures r.error.Some? <==> TagStrings(pkg).Raise?
    ensures r.error.Some? ==> r.value == EmptyList
    ensures r.value.List?
  {
    match TagStrings(pkg)
    case Raise(e) => Derived(EmptyList, Some(e))
    case Ok(tags) => Derived(List(SubjectEntries(SortedTags(tags))), None)
  }

  /** The subjects are exactly the strictly sorted enumeration of the
      non-empty tags, each wrapped as `{'subject': t}`: any strictly sorted
      sequence holding exactly those tags is the one the builder emits. */
  lemma SubjectsAreSortedTags(pkg: Record, tags: seq<string>, sorted: seq<string>)
    requires TagStrings(pkg) == Ok(tags)
    requires StrictlySorted(sorted)
    requires forall t :: t in sorted <==> t in tags && t != ""
    ensures Subjects(pkg) == Derived(List(SubjectEntries(sorted)), None)
  {
    StrictlySortedUnique(SortedTags(tags), sorted);
  }

  /** Where the subjects come from: when they are collected without error,
      they are the strictly sorted distinct non-empty tags, and a tag is
      among them exactly when it is a piece of the comma-split `tag_string`
      or the name of a `tags` entry. */
  lemma SubjectsCollectTags(pkg: Record)
    ensures Subjects(pkg).error.None? ==>
      && TagStrings(pkg).Ok?
      && var sorted := SortedTags(TagStrings(pkg).value);
         var parts := Split(GetOr(pkg, "tag_string", Str("")).s, ',');
         var entries := Iterate(GetOr(pkg, "tags", List([]))).value;
         && Subjects(pkg).value == List(SubjectEntries(sorted))
         && StrictlySorted(sorted)
         && forall t :: t in sorted <==>
              t != "" && (t in parts || exists j :: 0 <= j < |entries| && TagName(entries[j]) == Ok(Str(t)))
  {
    if Subjects(pkg).error.None? {
      var parts := Split(GetOr(pkg, "tag_string", Str("")).s, ',');
      var entries := Iterate(GetOr(pkg, "tags", List([]))).value;
      TagsFromSources(TagStrings(pkg).value, TagList(pkg).value, parts, entries);
    }
  }

  /** The tag strings laid over the split pieces followed by the entry names. */
  lemma TagsFromSources(tags: seq<string>, list: seq<Value>, parts: seq<string>, entries: seq<Value>)
    requires |tags| == |list| == |parts| + |entries|
    requires forall i :: 0 <= i < |list| ==> list[i] == Str(tags[i])
    requires forall i :: 0 <= i < |parts| ==> list[i] == Str(parts[i])
    requires forall j :: 0 <= j < |entries| ==> TagName(entries[j]) == Ok(list[|parts| + j])
    ensures forall t :: t in tags <==> t in parts || exists j :: 0 <= j < |entries| && TagName(entries[j]) == Ok(Str(t))
  {
    forall t
      ensures t in tags <==> t in parts || exists j :: 0 <= j < |entries| && TagName(entries[j]) == Ok(Str(t))
    {
      if t in tags {
        var i :| 0 <= i < |tags| && tags[i] == t;
        if i >= |parts| {
          assert TagName(entries[i - |parts|]) == Ok(Str(t));
        }
      }
      if t in parts {
        var i :| 0 <= i < |parts| && parts[i] == t;
        assert list[i] == Str(t);
      }
      if exists j :: 0 <= j < |entries| && TagName(entries[j]) == Ok(Str(t)) {
        var j :| 0 <= j < |entries| && TagName(entries[j]) == Ok(Str(t));
        assert list[|parts| + j] == Str(t);
      }
    }
  }

  // ------------------------------------------------------------------- dates

  /** `{'dateType': dateType, 'date': date}`. */
  function DateRecord(dateType: string, date: Value): Value
  {
    Dict([Field("dateType", Str(dateType)), Field("date", date)])
  }

  /** One date entry, or nothing when `date_or_none` raises. */
  function DateEntry(dateType: string, raw: Value, env: Env): (r: seq<Value>)
    ensures |r| <= 1 && (|r| == 1 <==> env.dateOrNone(raw).Ok?)
    ensures forall i :: 0 <= i < |r| ==> IsDateEntry(r[i])
    ensures |r| == 1 ==> r[0] == DateRecord(dateType, env.dateOrNone(raw).value)
  {
    match env.dateOrNone(raw)
    case Ok(d) =>
      var entries := [Field("dateType", Str(dateType)), Field("date", d)];
      LookupAt(entries, "date", 1);
      [Dict(entries)]
    case Raise(_) => []
  }

  /** A dates entry the projection can stringify: a dict with a `date` key. */
  predicate IsDateEntry(v: Value)
  {
    v.Dict? && Lookup(v.entries, "date").Some?
  }

  function Present(b: bool): nat { if b then 1 else 0 }

  /** Created, Updated and (only when the key exists at all) Issued, each
      dropped on its own when its date cannot be read. These failures are
      never recorded in the error dict. */
  function Dates(pkg: Record, env: Env): (r: Value)
    ensures r.List?
    ensures |r.items| ==
      Present(env.dateOrNone(Get(pkg, "metadata_created")).Ok?)
      + Present(env.dateOrNone(Get(pkg, "metadata_modified")).Ok?)
      + Present("doi_date_published" in pkg && env.dateOrNone(Get(pkg, "doi_date_published")).Ok?)
    ensures forall i :: 0 <= i < |r.items| ==> IsDateEntry(r.items[i])
    ensures r.items == DateEntry("Created", Get(pkg, "metadata_created"), env)
      + DateEntry("Updated", Get(pkg, "metadata_modified"), env)
      + (if "doi_date_published" in pkg then DateEntry("Issued", Get(pkg, "doi_date_published"), env) else [])
  {
    List(DateEntry("Created", Get(pkg, "metadata_created"), env)
      + DateEntry("Updated", Get(pkg, "metadata_modified"), env)
      + (if "doi_date_published" in pkg then DateEntry("Issued", Get(pkg, "doi_date_published"), env) else []))
  }

  /** The `Created`, `Updated` and `Issued` entries, in that order, each
      carrying what `date_or_none` made of its field; one whose date cannot
      be read is skipped and the later ones move up. */
  lemma DatesInOrder(pkg: Record, env: Env)
    ensures var created := env.dateOrNone(Get(pkg, "metadata_created"));
      var updated := env.dateOrNone(Get(pkg, "metadata_modified"));
      var issued := env.dateOrNone(Get(pkg, "doi_date_published"));
      var items := Dates(pkg, env).items;
      && (created.Ok? ==> items[0] == DateRecord("Created", created.value))
      && (updated.Ok? ==> items[Present(created.Ok?)] == DateRecord("Updated", updated.value))
      && ("doi_date_published" in pkg && issued.Ok? ==>
            items[Present(created.Ok?) + Present(updated.Ok?)] == DateRecord("Issued", issued.value))
  {
  }

  // ---------------------------------------------------------------- language

  /** `ckan_lang()`: its failure is recorded and the language stays `''`. */
  function Language(env: Env): (r: Derived)
    ensures env.language.Raise? ==> r == Derived(Str(""), Some(env.language.exc))
    ensures env.language.Ok? ==> r == Derived(env.language.value, None)
  {
    match env.language
    case Ok(v) => Derived(v, None)
    case Raise(e) => Derived(Str(""), Some(e))
  }

  // --------------------------------------------------- alternate identifiers

  /** The permalink `<site url>/dataset/<id>`; a package without `id` raises
      KeyError. */
  function AlternateIdentifiers(pkg: Record, env: Env): (r: Derived)
    ensures r.error.Some? <==> "id" !in pkg
    ensures r.error.Some? ==> r == Derived(EmptyList, Some(KeyError))
    ensures "id" in pkg && pkg["id"].Str? ==>
      r.value == List([Dict([
        Field("alternateIdentifierType", Str("URL")),
        Field("alternateIdentifier", Str(env.siteUrl + "/dataset/" + pkg["id"].s))])])
    ensures "id" in pkg ==>
      r.value == List([Dict([
        Field("alternateIdentifierType", Str("URL")),
        Field("alternateIdentifier", Str(env.siteUrl + "/dataset/" + Show(pkg["id"], env.render)))])])
  {
    if "id" !in pkg then Derived(EmptyList, Some(KeyError))
    else
      var link := env.siteUrl + "/dataset/" + Show(pkg["id"], env.render);
      Derived(List([Dict([
        Field("alternateIdentifierType", Str("URL")),
        Field("alternateIdentifier", Str(link))])]), None)
  }

  // ----------------------------------------------------- related identifiers

  const RelatedKeys: seq<string> := ["related_resource_url", "relation_type"]

  function RelatedEntry(rel: Value): (r: Py<Value>)
    ensures r.Ok? <==> HasKeys(rel, RelatedKeys)
    ensures r.Ok? ==>
      && r.value.Dict?
      && Lookup(r.value.entries, "relatedIdentifier") == Lookup(rel.entries, "related_resource_url")
      && Lookup(r.value.entries, "relatedIdentifierType") == Some(Str("URL"))
      && Lookup(r.value.entries, "relationType") == Lookup(rel.entries, "relation_type")
  {
    var vals :- ReadKeys(rel, RelatedKeys);
    var entries := [
      Field("relatedIdentifier", vals[0]),
      Field("relatedIdentifierType", Str("URL")),
      Field("relationType", vals[1])];
    LookupAt(entries, "relatedIdentifier", 0);
    LookupAt(entries, "relatedIdentifierType", 1);
    LookupAt(entries, "relationType", 2);
    Ok(Dict(entries))
  }

  /** Entries are appended inside the `try`: when an entry fails, the ones
      before it stay in the list next to the recorded error. */
  function RelatedIdentifiers(pkg: Record, env: Env): (r: Derived)
    ensures r.value.List?
    ensures var parsed := env.literalEval(Get(pkg, "related_resource"));
      && (parsed.Raise? ==> r == Derived(EmptyList, Some(parsed.exc)))
      && (parsed.Ok? && !parsed.value.List? ==> r == Derived(EmptyList, None))
      && (parsed.Ok? && parsed.value.List? ==>
            var items := parsed.value.items;
            && |r.value.items| <= |items|
            && (forall i :: 0 <= i < |r.value.items| ==> RelatedEntry(items[i]) == Ok(r.value.items[i]))
            && (r.error.None? <==> |r.value.items| == |items|)
            && (r.error.Some? ==> !HasKeys(items[|r.value.items|], RelatedKeys)))
  {
    match env.literalEval(Get(pkg, "related_resource"))
    case Raise(e) => Derived(EmptyList, Some(e))
    case Ok(parsed) =>
      if !parsed.List? then Derived(EmptyList, None)
      else
        var p := MapUntilFailure(parsed.items, RelatedEntry);
        Derived(List(p.done), p.stop)
  }

  // ------------------------------------------------------- sizes and formats

  /** `pkg_dict.get('resources', []) or []`, iterated. */
  function Resources(pkg: Record): (r: Py<seq<Value>>)
    ensures !Truthy(GetOr(pkg, "resources", EmptyList)) ==> r == Ok([])
    ensures GetOr(pkg, "resources", EmptyList).List? ==> r == Ok(GetOr(pkg, "resources", EmptyList).items)
    ensures Truthy(GetOr(pkg, "resources", EmptyList)) ==> r == Iterate(GetOr(pkg, "resources", EmptyList))
  {
    var v := GetOr(pkg, "resources", EmptyList);
    if !Truthy(v) then Ok([]) else Iterate(v)
  }

  /** `r.get('size') or 0`. */
  function SizeOf(res: Value): (r: Py<Value>)
    ensures r.Ok? <==> res.Dict?
    ensures r.Ok? && Lookup(res.entries, "size").None? ==> r == Ok(Int(0))
    ensures r.Ok? && Lookup(res.entries, "size").Some? && !Truthy(Lookup(res.entries, "size").value) ==>
      r == Ok(Int(0))
    ensures r.Ok? && Lookup(res.entries, "size").Some? && Truthy(Lookup(res.entries, "size").value) ==>
      r == Ok(Lookup(res.entries, "size").value)
  {
    var s :- DictGet(res, "size");
    Ok(if Truthy(s) then s else Int(0))
  }

  /** The number a value contributes to `sum`: integers, and booleans as 0/1. */
  function Number(v: Value): Py<int>
  {
    match v
    case Int(i) => Ok(i)
    case Bool(b) => Ok(if b then 1 else 0)
    case _ => Raise(TypeError)
  }

  /** `sum(vs)`: TypeError as soon as a summand is not a number. */
  function Sum(vs: seq<Value>): (r: Py<int>)
    ensures r.Ok? <==> forall i :: 0 <= i < |vs| ==> Number(vs[i]).Ok?
    decreases |vs|
  {
    if |vs| == 0 then Ok(0)
    else
      var head :- Number(vs[0]);
      var tail :- Sum(vs[1..]);
      Ok(head + tail)
  }

  /** The integer sum of integer sizes is their arithmetic sum. */
  function IntSum(ns: seq<int>): int
  {
    if |ns| == 0 then 0 else ns[0] + IntSum(ns[1..])
  }

  lemma {:induction false} SumOfInts(vs: seq<Value>, ns: seq<int>)
    requires |vs| == |ns|
    requires forall i :: 0 <= i < |vs| ==> vs[i] == Int(ns[i])
    ensures Sum(vs) == Ok(IntSum(ns))
    decreases |vs|
  {
    if |vs| > 0 {
      SumOfInts(vs[1..], ns[1..]);
    }
  }

  /** `int(total / 1024)`: true division, then truncation toward zero. */
  function Kilobytes(total: int): (q: int)
    ensures 0 <= total ==> 0 <= q && q * 1024 <= total < q * 1024 + 1024
    ensures total < 0 ==> q <= 0 && q * 1024 - 1024 < total <= q * 1024
  {
    if total >= 0 then total / 1024 else -((-total) / 1024)
  }

  /** The total of the resource sizes, when every size can be added. */
  function TotalSize(pkg: Record): Py<int>
  {
    var resources :- Resources(pkg);
    var sizes :- MapAll(resources, SizeOf);
    Sum(sizes)
  }

  function SizeText(total: int): string
  {
    IntToDecimal(Kilobytes(total)) + " kb"
  }

  /** A single `"<kilobytes> kb"` entry, or `[]` and the error. */
  function Sizes(pkg: Record): (r: Derived)
    ensures r.error.None? <==> TotalSize(pkg).Ok?
    ensures r.error.None? ==>
      r.value.List? && |r.value.items| == 1 && r.value.items[0].Str?
      && var text := r.value.items[0].s;
         |text| > 3 && text[|text| - 3..] == " kb"
         && IsIntLiteral(text[..|text| - 3])
         && IntValue(text[..|text| - 3]) == Kilobytes(TotalSize(pkg).value)
    ensures r.error.Some? ==> r.value == EmptyList
  {
    match TotalSize(pkg)
    case Ok(total) =>
      var text := SizeText(total);
      var digits := IntToDecimal(Kilobytes(total));
      assert text[..|text| - 3] == digits;
      Derived(List([Str(text)]), None)
    case Raise(e) => Derived(EmptyList, Some(e))
  }

  /** `hash(v)` succeeds: lists, dicts and sets are unhashable, and so is a
      tuple holding one. */
  predicate Hashable(v: Value)
  {
    match v
    case List(_) => false
    case Dict(_) => false
    case Opaque(kind) => kind != "set"
    case Tuple(xs) => forall i :: 0 <= i < |xs| ==> Hashable(xs[i])
    case _ => true
  }

  /** The truthy values of `vs`, in order (`filter(None, vs)`). */
  function KeepTruthy(vs: seq<Value>): (r: seq<Value>)
    ensures forall x :: x in r <==> x in vs && Truthy(x)
    decreases |vs|
  {
    if |vs| == 0 then []
    else if Truthy(vs[0]) then [vs[0]] + KeepTruthy(vs[1..])
    else KeepTruthy(vs[1..])
  }

  /** `list(set(vs))`, taking the elements in order of first occurrence. */
  function Dedup(vs: seq<Value>): (r: seq<Value>)
    ensures forall x :: x in r <==> x in vs
    ensures forall i, j :: 0 <= i < j < |r| ==> r[i] != r[j]
    decreases |vs|
  {
    if |vs| == 0 then []
    else
      var init := vs[..|vs| - 1];
      var last := vs[|vs| - 1];
      assert vs == init + [last];
      var r := Dedup(init);
      if last in r then r else r + [last]
  }

  /** `r.get('format')` for every resource. */
  function FormatValues(pkg: Record): Py<seq<Value>>
  {
    var resources :- Resources(pkg);
    MapAll(resources, res => DictGet(res, "format"))
  }

  /** The distinct truthy formats of the resources. */
  function Formats(pkg: Record): (r: Derived)
    ensures r.value.List?
    ensures r.error.Some? ==> r.value == EmptyList
    ensures r.error.None? <==>
      && FormatValues(pkg).Ok?
      && forall x :: x in FormatValues(pkg).value && Truthy(x) ==> Hashable(x)
    ensures r.error.None? ==>
      && (forall x :: x in r.value.items <==> x in FormatValues(pkg).value && Truthy(x))
      && (forall i, j :: 0 <= i < j < |r.value.items| ==> r.value.items[i] != r.value.items[j])
  {
    match FormatValues(pkg)
    case Raise(e) => Derived(EmptyList, Some(e))
    case Ok(fs) =>
      var kept := KeepTruthy(fs);
      if forall x :: x in kept ==> Hashable(x) then Derived(List(Dedup(kept)), None)
      else Derived(EmptyList, Some(TypeError))
  }

  // ------------------------------------------------------------------ rights

  const CcBy := "cc-by-4.0-international"

  const SpdxCcBy: Value := Dict([
    Field("rightsUri", Str("https://spdx.org/licenses/CC-BY-4.0.html")),
    Field("rightsIdentifier", Str("CC-BY-4.0")),
    Field("rightsIdentifierScheme", Str("SPDX"))])

  /** `license_id`, falling back to `license` only when `license_id` is
      missing or None, and to `''` when `license` is missing too. */
  function LicenseId(pkg: Record): (id: Value)
    ensures "license_id" in pkg && pkg["license_id"] != Null ==> id == pkg["license_id"]
    ensures Get(pkg, "license_id") == Null && "license" in pkg ==> id == pkg["license"]
    ensures Get(pkg, "license_id") == Null && "license" !in pkg ==> id == Str("")
  {
    var id := Get(pkg, "license_id");
    if id == Null then GetOr(pkg, "license", Str("")) else id
  }

  /** The license's registry entry, if the id is a registered string. */
  predicate Registered(id: Value, licenses: map<string, Value>)
  {
    id.Str? && id.s in licenses
  }

  /** The rights list, by precedence: CC-BY-4.0 international gives the SPDX
      entry; another non-empty id gives the register's URL and id, or nothing
      when the register does not know it; an empty or None id gives
      `[{'rights': id}]`. */
  function RightsList(pkg: Record, licenses: map<string, Value>): (r: Value)
    ensures var id := LicenseId(pkg);
      && (id == Str(CcBy) <==> r == List([SpdxCcBy]))
      && (id != Str(CcBy) && id != Str("") && id != Null && Registered(id, licenses) ==>
            r == List([Dict([Field("rightsUri", licenses[id.s]), Field("rightsIdentifier", id)])]))
      && (r == EmptyList <==> id != Str(CcBy) && id != Str("") && id != Null && !Registered(id, licenses))
      && (id == Str("") || id == Null <==> r == List([Dict([Field("rights", id)])]))
  {
    var id := LicenseId(pkg);
    if id == Str(CcBy) then List([SpdxCcBy])
    else if id != Str("") && id != Null then
      if Registered(id, licenses) then
        List([Dict([Field("rightsUri", licenses[id.s]), Field("rightsIdentifier", id)])])
      else EmptyList
    else List([Dict([Field("rights", id)])])
  }

  // ------------------------------------------------------------ descriptions

  /** One description of type `Other`: the package's `notes`, or `''`
      when it has none. */
  function Descriptions(pkg: Record): (r: Value)
    ensures r.List? && |r.items| == 1 && r.items[0].Dict?
    ensures Lookup(r.items[0].entries, "descriptionType") == Some(Str("Other"))
    ensures Lookup(r.items[0].entries, "description") == Some(if "notes" in pkg then pkg["notes"] else Str(""))
  {
    var entries := [Field("descriptionType", Str("Other")), Field("description", GetOr(pkg, "notes", Str("")))];
    LookupAt(entries, "descriptionType", 0);
    LookupAt(entries, "description", 1);
    List([Dict(entries)])
  }

  // ------------------------------------------------------------ geolocations

  /** The exceptions the geolocation `try` catches; any other escapes the
      whole build. */
  predicate GeoCaught(e: Exc)
  {
    e == ValueError || e == KeyError || e == IndexError
  }

  /** One feature: `[entry]` when its geometry has the wanted type, else `[]`. */
  function FeatureStep(feature: Value, geometryType: string, convert: Value -> Py<Value>): (r: Py<Value>)
    ensures r.Ok? ==> r.value.List? && |r.value.items| <= 1
    ensures r.Ok? && |r.value.items| == 1 ==>
      Subscript(feature, "geometry").Ok?
      && Subscript(Subscript(feature, "geometry").value, "type") == Ok(Str(geometryType))
    ensures Subscript(feature, "geometry").Raise? ==> r == Raise(Subscript(feature, "geometry").exc)
    ensures var geometry := Subscript(feature, "geometry");
      geometry.Ok? && Subscript(geometry.value, "type").Ok? && Subscript(geometry.value, "type").value != Str(geometryType) ==>
        r == Ok(EmptyList)
    ensures var geometry := Subscript(feature, "geometry");
      geometry.Ok? && Subscript(geometry.value, "type").Raise? ==> r == Raise(Subscript(geometry.value, "type").exc)
    ensures var geometry := Subscript(feature, "geometry");
      geometry.Ok? && Subscript(geometry.value, "type") == Ok(Str(geometryType)) ==>
        var coordinates := Subscript(geometry.value, "coordinates");
        && (coordinates.Raise? ==> r == Raise(coordinates.exc))
        && (coordinates.Ok? && convert(coordinates.value).Raise? ==> r == Raise(convert(coordinates.value).exc))
        && (coordinates.Ok? && convert(coordinates.value).Ok? ==> r == Ok(List([convert(coordinates.value).value])))
  {
    var geometry :- Subscript(feature, "geometry");
    var kind :- Subscript(geometry, "type");
    if kind != Str(geometryType) then Ok(EmptyList)
    else
      var coordinates :- Subscript(geometry, "coordinates");
      var entry :- convert(coordinates);
      Ok(List([entry]))
  }

  /** Concatenates the one-or-no-entry lists of the features. */
  function Concat(steps: seq<Value>): seq<Value>
  {
    if |steps| == 0 then []
    else (if steps[0].List? then steps[0].items else []) + Concat(steps[1..])
  }

  /** `pkg_dict["location_data"]["features"]`, iterated. */
  function Features(pkg: Record): (r: Py<seq<Value>>)
    ensures "location_data" !in pkg ==> r == Raise(KeyError)
    ensures "location_data" in pkg && Subscript(pkg["location_data"], "features").Ok? ==>
      r == Iterate(Subscript(pkg["location_data"], "features").value)
    ensures "location_data" in pkg && Subscript(pkg["location_data"], "features").Raise? ==>
      r == Raise(Subscript(pkg["location_data"], "features").exc)
  {
    if "location_data" !in pkg then Raise(KeyError)
    else
      var features :- Subscript(pkg["location_data"], "features");
      Iterate(features)
  }

  /** The feature's step raises. */
  predicate StepRaises(feature: Value, geometryType: string, convert: Value -> Py<Value>)
  {
    FeatureStep(feature, geometryType, convert).Raise?
  }

  /** How many features the loop gets through: the index of the first
      feature whose step raises, or all of them. */
  function Reached(fs: seq<Value>, geometryType: string, convert: Value -> Py<Value>): (k: nat)
    ensures k <= |fs|
    ensures forall i :: 0 <= i < k ==> !StepRaises(fs[i], geometryType, convert)
    ensures k < |fs| ==> StepRaises(fs[k], geometryType, convert)
    decreases |fs|
  {
    if |fs| == 0 || StepRaises(fs[0], geometryType, convert) then 0
    else
      var rest := fs[1..];
      var k := Reached(rest, geometryType, convert);
      assert forall i :: 1 <= i < |fs| ==> fs[i] == rest[i - 1];
      assert k + 1 < |fs| ==> fs[k + 1] == rest[k];
      k + 1
  }

  /** The entries appended for features that all step successfully. */
  function Appended(fs: seq<Value>, geometryType: string, convert: Value -> Py<Value>): seq<Value>
    requires forall i :: 0 <= i < |fs| ==> FeatureStep(fs[i], geometryType, convert).Ok?
    decreases |fs|
  {
    if |fs| == 0 then []
    else
      assert forall i :: 0 <= i < |fs| - 1 ==> fs[1..][i] == fs[i + 1];
      FeatureStep(fs[0], geometryType, convert).value.items + Appended(fs[1..], geometryType, convert)
  }

  /** The loop over `location_data['features']`. It appends inside the
      `try`, so when a feature raises, the entries of the features before it
      stay, and the exception is the one that feature raised. */
  function GeoLoop(pkg: Record, geometryType: string, convert: Value -> Py<Value>): (r: Partial)
    ensures Features(pkg).Raise? ==> r == Partial([], Some(Features(pkg).exc))
    ensures Features(pkg).Ok? ==>
      var fs := Features(pkg).value;
      var k := Reached(fs, geometryType, convert);
      && r.done == Appended(fs[..k], geometryType, convert)
      && r.stop == (if k < |fs| then Some(FeatureStep(fs[k], geometryType, convert).exc) else None)
  {
    match Features(pkg)
    case Raise(e) => Partial([], Some(e))
    case Ok(fs) =>
      var step := f => FeatureStep(f, geometryType, convert);
      var p := MapUntilFailure(fs, step);
      ReachedIsFirstFailure(fs, geometryType, convert, |p.done|);
      ConcatIsAppended(fs[..|p.done|], p.done, geometryType, convert);
      Partial(Concat(p.done), p.stop)
  }

  /** Any index that every earlier step passes and whose own step raises
      (or that is the end) is the one `Reached` finds. */
  lemma {:induction false} ReachedIsFirstFailure(fs: seq<Value>, geometryType: string, convert: Value -> Py<Value>, k: nat)
    requires k <= |fs|
    requires forall i :: 0 <= i < k ==> FeatureStep(fs[i], geometryType, convert).Ok?
    requires k < |fs| ==> FeatureStep(fs[k], geometryType, convert).Raise?
    ensures Reached(fs, geometryType, convert) == k
    decreases |fs|
  {
    if |fs| > 0 && k > 0 {
      ReachedIsFirstFailure(fs[1..], geometryType, convert, k - 1);
    }
  }

  /** Concatenating the steps' results is appending each feature's entries. */
  lemma {:induction false} ConcatIsAppended(fs: seq<Value>, done: seq<Value>, geometryType: string, convert: Value -> Py<Value>)
    requires |done| == |fs|
    requires forall i :: 0 <= i < |fs| ==> FeatureStep(fs[i], geometryType, convert) == Ok(done[i])
    ensures Concat(done) == Appended(fs, geometryType, convert)
    decreases |fs|
  {
    if |fs| > 0 {
      ConcatIsAppended(fs[1..], done[1..], geometryType, convert);
    }
  }

  /** The feature loop as the builder's handler sees it: an exception it
      does not catch escapes the build, a caught one is recorded beside the
      entries appended before it. */
  function GeoFeatures(pkg: Record, geometryType: string, convert: Value -> Py<Value>): (r: Py<Derived>)
    ensures Features(pkg).Raise? ==>
      (GeoCaught(Features(pkg).exc) <==> r.Ok?)
      && (r.Ok? ==> r.value == Derived(EmptyList, Some(Features(pkg).exc)))
    ensures Features(pkg).Ok? ==>
      var fs := Features(pkg).value;
      var k := Reached(fs, geometryType, convert);
      && (r.Raise? <==> k < |fs| && !GeoCaught(FeatureStep(fs[k], geometryType, convert).exc))
      && (r.Ok? ==> r.value.value == List(Appended(fs[..k], geometryType, convert)))
      && (r.Ok? ==> (r.value.error.Some? <==> k < |fs|))
  {
    var loop := GeoLoop(pkg, geometryType, convert);
    match loop.stop
    case None => Ok(Derived(List(loop.done), None))
    case Some(e) => if GeoCaught(e) then Ok(Derived(List(loop.done), Some(e))) else Raise(e)
  }

  /** `location_choice` selects points or boxes; any other value, missing
      included, leaves `[]` with no error. */
  function GeoLocations(pkg: Record, env: Env): (r: Py<Derived>)
    ensures Get(pkg, "location_choice") != Str("point") && Get(pkg, "location_choice") != Str("area") ==>
      r == Ok(Derived(EmptyList, None))
    ensures r.Ok? ==> r.value.value.List?
    ensures r.Raise? ==> !GeoCaught(r.exc)
    ensures "location_data" !in pkg && Get(pkg, "location_choice") in {Str("point"), Str("area")} ==>
      r == Ok(Derived(EmptyList, Some(KeyError)))
    ensures Get(pkg, "location_choice") == Str("point") ==> r == GeoFeatures(pkg, "Point", env.pointOf)
    ensures Get(pkg, "location_choice") == Str("area") ==> r == GeoFeatures(pkg, "Polygon", env.boxOf)
  {
    var choice := Get(pkg, "location_choice");
    if choice == Str("point") then GeoFeatures(pkg, "Point", env.pointOf)
    else if choice == Str("area") then GeoFeatures(pkg, "Polygon", env.boxOf)
    else Ok(Derived(EmptyList, None))
  }

  // ----------------------------------------------------------------- funding

  /** DataCite 4.3 has no `Wikidata` funder identifier type: it and the empty
      type become `Other`; every other type passes through. */
  function FunderIdentifierType(t: Value): (r: Value)
    ensures r == Str("Other") <==> t == Str("Wikidata") || t == Str("") || t == Str("Other")
    ensures t != Str("Wikidata") && t != Str("") ==> r == t
  {
    if t == Str("Wikidata") || t == Str("") then Str("Other") else t
  }

  const FunderKeys: seq<string> := ["funder_identifier_type", "funder_name", "funder_identifier"]

  function FunderEntry(f: Value): (r: Py<Value>)
    ensures r.Ok? <==> HasKeys(f, FunderKeys)
    ensures r.Ok? ==>
      && r.value.Dict?
      && Lookup(r.value.entries, "funderName") == Lookup(f.entries, "funder_name")
      && Lookup(r.value.entries, "funderIdentifier") == Lookup(f.entries, "funder_identifier")
      && Lookup(r.value.entries, "funderIdentifierType")
         == Some(FunderIdentifierType(Lookup(f.entries, "funder_identifier_type").value))
  {
    var vals :- ReadKeys(f, FunderKeys);
    Ok(FunderRecord(vals[1], vals[2], FunderIdentifierType(vals[0])))
  }

  /** `{'funderName': …, 'funderIdentifier': …, 'funderIdentifierType': …}`. */
  function FunderRecord(name: Value, id: Value, idType: Value): (r: Value)
    ensures r.Dict?
    ensures Lookup(r.entries, "funderName") == Some(name)
    ensures Lookup(r.entries, "funderIdentifier") == Some(id)
    ensures Lookup(r.entries, "funderIdentifierType") == Some(idType)
  {
    var entries := [
      Field("funderName", name),
      Field("funderIdentifier", id),
      Field("funderIdentifierType", idType)];
    assert entries[0].0 == Str("funderName") && entries[1].0 == Str("funderIdentifier");
    assert entries[2].0 == Str("funderIdentifierType");
    LookupAt(entries, "funderIdentifier", 1);
    LookupAt(entries, "funderIdentifierType", 2);
    Dict(entries)
  }

  /** Skipped altogether when `funder` is missing or `''`. Otherwise the
      parsed literal is iterated; entries are appended inside the `try`, so a
      bad entry leaves the ones before it in place. */
  function FundingReferences(pkg: Record, env: Env): (r: Derived)
    ensures r.value.List?
    ensures GetOr(pkg, "funder", Str("")) == Str("") ==> r == Derived(EmptyList, None)
    ensures GetOr(pkg, "funder", Str("")) != Str("") ==>
      var parsed := env.literalEval(pkg["funder"]);
      && (parsed.Raise? ==> r == Derived(EmptyList, Some(parsed.exc)))
      && (parsed.Ok? && Iterate(parsed.value).Raise? ==> r == Derived(EmptyList, Some(TypeError)))
      && (parsed.Ok? && Iterate(parsed.value).Ok? ==>
            var items := Iterate(parsed.value).value;
            && |r.value.items| <= |items|
            && (forall i :: 0 <= i < |r.value.items| ==> FunderEntry(items[i]) == Ok(r.value.items[i]))
            && (r.error.None? <==> |r.value.items| == |items|)
            && (r.error.Some? ==> !HasKeys(items[|r.value.items|], FunderKeys)))
  {
    if GetOr(pkg, "funder", Str("")) == Str("") then Derived(EmptyList, None)
    else
      match env.literalEval(Get(pkg, "funder"))
      case Raise(e) => Derived(EmptyList, Some(e))
      case Ok(funders) =>
        match Iterate(funders)
        case Raise(e) => Derived(EmptyList, Some(e))
        case Ok(items) =>
          var p := MapUntilFailure(items, FunderEntry);
          Derived(List(p.done), p.stop)
  }
}

=== FILE: metadata.dfy ===
/** `build_metadata_dict` (ckanext/doi/lib/metadata.py:22-344): every field
    derived in isolation, the IDoi plugins folded over the metadata and
    error dicts in registration order, and the verdict on the required keys. */
module Metadata {
  import opened PyValue
  import opened Environment
  import opened Fields

  const RequiredKeys: set<string> :=
    {"creators", "titles", "publisher", "publicationYear", "resourceType"}

  const OptionalKeys: set<string> := {
    "subjects", "contributors", "dates", "language", "alternateIdentifiers",
    "relatedIdentifiers", "sizes", "formats", "version", "rightsList",
    "descriptions", "geoLocations", "fundingReferences"}

  /** The fields whose derivation can record an error. */
  const FallibleKeys: set<string> := {
    "creators", "subjects", "contributors", "language", "alternateIdentifiers",
    "relatedIdentifiers", "sizes", "formats", "geoLocations", "fundingReferences"}

  /** What each field's derivation produced. Fields whose derivation sits in
      its own `try` carry an optional error; the rest are plain values. */
  datatype Derivations = Derivations(
    creators: Derived,
    titles: Value,
    publisher: Value,
    publicationYear: Value,
    resourceType: Value,
    subjects: Derived,
    contributors: Derived,
    dates: Value,
    language: Derived,
    alternateIdentifiers: Derived,
    relatedIdentifiers: Derived,
    sizes: Derived,
    formats: Derived,
    version: Value,
    rightsList: Value,
    descriptions: Value,
    geoLocations: Derived,
    fundingReferences: Derived)

  /** Every field derived from the package before any plugin runs. Only the
      year test and the geolocation loop can raise out of the build. */
  function DeriveFields(pkg: Record, env: Env): (r: Py<Derivations>)
    ensures r.Raise? <==> PublicationYear(pkg, env.currentYear).Raise? || GeoLocations(pkg, env).Raise?
    ensures r.Ok? ==> r.value.publicationYear == PublicationYear(pkg, env.currentYear).value
    ensures r.Ok? ==> Ok(r.value.geoLocations) == GeoLocations(pkg, env)
  {
    var year :- PublicationYear(pkg, env.currentYear);
    var geo :- GeoLocations(pkg, env);
    Ok(Derivations(
      Creators(pkg, env), Titles(pkg), env.publisher, year, Get(pkg, "type"),
      Subjects(pkg), Contributors(pkg, env), Dates(pkg, env), Language(env),
      AlternateIdentifiers(pkg, env), RelatedIdentifiers(pkg, env), Sizes(pkg),
      Formats(pkg), Get(pkg, "version"), RightsList(pkg, env.licenses),
      Descriptions(pkg), geo, FundingReferences(pkg, env)))
  }

  /** The value the metadata dict holds under `key`. */
  function Entry(d: Derivations, key: string): Value
  {
    if key == "creators" then d.creators.value
    else if key == "titles" then d.titles
    else if key == "publisher" then d.publisher
    else if key == "publicationYear" then d.publicationYear
    else if key == "resourceType" then d.resourceType
    else if key == "dates" then d.dates
    else if key == "version" then d.version
    else if key == "rightsList" then d.rightsList
    else if key == "descriptions" then d.descriptions
    else Fallible(d, key).value
  }

  /** The metadata dict: one key per field, required and optional alike. */
  function MetadataOf(d: Derivations): (md: Record)
    ensures md.Keys == RequiredKeys + OptionalKeys
    ensures md["titles"] == d.titles && md["publicationYear"] == d.publicationYear
    ensures md["publisher"] == d.publisher && md["resourceType"] == d.resourceType
    ensures md["dates"] == d.dates && md["creators"] == d.creators.value
  {
    map k | k in RequiredKeys + OptionalKeys :: Entry(d, k)
  }

  /** The result of the field under `key`, for the fields with their own `try`. */
  function Fallible(d: Derivations, key: string): Derived
  {
    if key == "creators" then d.creators
    else if key == "subjects" then d.subjects
    else if key == "contributors" then d.contributors
    else if key == "language" then d.language
    else if key == "alternateIdentifiers" then d.alternateIdentifiers
    else if key == "relatedIdentifiers" then d.relatedIdentifiers
    else if key == "sizes" then d.sizes
    else if key == "formats" then d.formats
    else if key == "geoLocations" then d.geoLocations
    else d.fundingReferences
  }

  /** The error dict: only fields with their own `try` can have an entry,
      and among the required fields that is `creators` alone. */
  function ErrorsOf(d: Derivations): (errs: Errors)
    ensures errs.Keys <= FallibleKeys
    ensures "creators" in errs <==> d.creators.error.Some?
    ensures "creators" in errs ==> errs["creators"] == d.creators.error.value
    ensures forall k :: k in FallibleKeys ==>
      && (k in errs <==> Fallible(d, k).error.Some?)
      && (k in errs ==> errs[k] == Fallible(d, k).error.value)
  {
    map k | k in FallibleKeys && Fallible(d, k).error.Some? :: Fallible(d, k).error.value
  }

  /** The metadata dict and the error dict as they stand before the plugins. */
  function BaseRecord(pkg: Record, env: Env): (r: Py<(Record, Errors)>)
    ensures r.Raise? <==> DeriveFields(pkg, env).Raise?
    ensures r.Ok? ==> r.value == (MetadataOf(DeriveFields(pkg, env).value), ErrorsOf(DeriveFields(pkg, env).value))
  {
    var d :- DeriveFields(pkg, env);
    Ok((MetadataOf(d), ErrorsOf(d)))
  }

  /** The plugins' `build_metadata_dict` hooks, applied left to right. */
  function FoldMetadata(ps: seq<Plugin>, pkg: Record, md: Record, errs: Errors): (r: (Record, Errors))
    ensures |ps| == 0 ==> r == (md, errs)
    ensures |ps| > 0 ==>
      var before := FoldMetadata(ps[..|ps| - 1], pkg, md, errs);
      r == ps[|ps| - 1].onMetadata(pkg, before.0, before.1)
    decreases |ps|
  {
    if |ps| == 0 then (md, errs)
    else
      var next := ps[0].onMetadata(pkg, md, errs);
      var r := FoldMetadata(ps[1..], pkg, next.0, next.1);
      assert |ps| > 1 ==> ps[1..][..|ps| - 2] == ps[..|ps| - 1][1..] && ps[1..][|ps| - 2] == ps[|ps| - 1];
      r
  }

  /** Folding two plugin lists one after the other is folding their
      concatenation: later plugins see what earlier ones produced. */
  lemma {:induction false} FoldMetadataAppend(ps: seq<Plugin>, qs: seq<Plugin>, pkg: Record, md: Record, errs: Errors)
    ensures FoldMetadata(ps + qs, pkg, md, errs)
      == var mid := FoldMetadata(ps, pkg, md, errs); FoldMetadata(qs, pkg, mid.0, mid.1)
    decreases |ps|
  {
    if |ps| == 0 {
      assert ps + qs == qs;
    } else {
      var next := ps[0].onMetadata(pkg, md, errs);
      assert (ps + qs)[0] == ps[0] && (ps + qs)[1..] == ps[1..] + qs;
      FoldMetadataAppend(ps[1..], qs, pkg, next.0, next.1);
    }
  }

  /** The error dict after the null check: a required key whose value is
      missing or None and that has no error yet gets a metadata error. */
  function WithNullErrors(md: Record, errs: Errors): (r: Errors)
    ensures r.Keys == errs.Keys + (set k | k in RequiredKeys && Get(md, k) == Null)
    ensures forall k :: k in errs ==> r[k] == errs[k]
    ensures forall k :: k in r && k !in errs ==> r[k] == MetadataError
  {
    errs + map k | k in RequiredKeys && Get(md, k) == Null && k !in errs :: MetadataError
  }

  /** The required keys that have an error once the null check has run. */
  function FailedRequired(md: Record, errs: Errors): (ks: set<string>)
    ensures forall k :: k in ks <==> k in RequiredKeys && (k in errs || Get(md, k) == Null)
  {
    WithNullErrors(md, errs).Keys * RequiredKeys
  }

  /** The outcome of `build_metadata_dict`: the metadata dict, the aggregated
      failure naming every failed required key, or an exception that no
      handler in the builder catches. */
  datatype Outcome = Built(record: Record) | MissingRequired(keys: set<string>) | Uncaught(exc: Exc)

  /** The verdict on the metadata and errors the plugins left. */
  function Judge(md: Record, errs: Errors): (r: Outcome)
    ensures r.MissingRequired? <==> exists k :: k in RequiredKeys && (k in errs || Get(md, k) == Null)
    ensures r.MissingRequired? ==> r.keys == set k | k in RequiredKeys && (k in errs || Get(md, k) == Null)
    ensures r.Built? ==> r.record == md && forall k :: k in RequiredKeys ==> k in md && md[k] != Null
    ensures !r.Uncaught?
  {
    var failed := FailedRequired(md, errs);
    if failed != {} then MissingRequired(failed) else Built(md)
  }

  /** Errors recorded under optional keys never change the verdict. */
  lemma OptionalErrorsIgnored(md: Record, e1: Errors, e2: Errors)
    requires forall k :: k in RequiredKeys ==> (k in e1 <==> k in e2)
    ensures Judge(md, e1) == Judge(md, e2)
  {
    assert FailedRequired(md, e1) == FailedRequired(md, e2);
  }

  function BuildMetadata(pkg: Record, env: Env): (r: Outcome)
    ensures r.Uncaught? <==> BaseRecord(pkg, env).Raise?
    ensures BaseRecord(pkg, env).Ok? ==>
      var base := BaseRecord(pkg, env).value;
      var out := FoldMetadata(env.plugins, pkg, base.0, base.1);
      && (r.MissingRequired? <==> exists k :: k in RequiredKeys && (k in out.1 || Get(out.0, k) == Null))
      && (r.MissingRequired? ==> r.keys == set k | k in RequiredKeys && (k in out.1 || Get(out.0, k) == Null))
      && (r.Built? ==> r.record == out.0 && forall k :: k in RequiredKeys ==> k in r.record && r.record[k] != Null)
  {
    match BaseRecord(pkg, env)
    case Raise(e) => Uncaught(e)
    case Ok(base) =>
      var out := FoldMetadata(env.plugins, pkg, base.0, base.1);
      Judge(out.0, out.1)
  }

  /** Without plugins, only three required keys can fail: `creators` when
      its literal or one of its author dicts is bad, `publisher` when the
      configuration has none, `resourceType` when the package has no type.
      The failure names exactly those of the three that failed. */
  lemma VerdictWithoutPlugins(pkg: Record, env: Env)
    requires env.plugins == []
    ensures BaseRecord(pkg, env).Ok? ==>
      var failed :=
        (if Creators(pkg, env).error.Some? then {"creators"} else {})
        + (if env.publisher == Null then {"publisher"} else {})
        + (if Get(pkg, "type") == Null then {"resourceType"} else {});
      && (BuildMetadata(pkg, env).MissingRequired? <==> failed != {})
      && (BuildMetadata(pkg, env).MissingRequired? ==> BuildMetadata(pkg, env).keys == failed)
  {
    if BaseRecord(pkg, env).Ok? {
      var d := DeriveFields(pkg, env).value;
      var md := MetadataOf(d);
      var errs := ErrorsOf(d);
      assert BuildMetadata(pkg, env) == Judge(md, errs);
      assert Get(md, "creators").List? && Get(md, "titles").List? && Get(md, "publicationYear") != Null;
      assert Get(md, "publisher") == env.publisher && Get(md, "resourceType") == Get(pkg, "type");
      RequiredFailures(md, errs);
    }
  }

  /** The failed required keys when `titles` and `publicationYear` are set and
      `creators` is the only required key that can carry an error. */
  lemma RequiredFailures(md: Record, errs: Errors)
    requires Get(md, "creators") != Null && Get(md, "titles") != Null && Get(md, "publicationYear") != Null
    requires errs.Keys <= FallibleKeys
    ensures (set k | k in RequiredKeys && (k in errs || Get(md, k) == Null))
      == (if "creators" in errs then {"creators"} else {})
        + (if Get(md, "publisher") == Null then {"publisher"} else {})
        + (if Get(md, "resourceType") == Null then {"resourceType"} else {})
  {
  }

  /** A plugin that never adds or removes metadata keys. */
  ghost predicate KeepsKeys(p: Plugin, pkg: Record)
  {
    forall md: Record, errs: Errors :: p.onMetadata(pkg, md, errs).0.Keys == md.Keys
  }

  lemma {:induction false} FoldKeepsKeys(ps: seq<Plugin>, pkg: Record, md: Record, errs: Errors)
    requires forall i :: 0 <= i < |ps| ==> KeepsKeys(ps[i], pkg)
    ensures FoldMetadata(ps, pkg, md, errs).0.Keys == md.Keys
    decreases |ps|
  {
    if |ps| > 0 {
      var next := ps[0].onMetadata(pkg, md, errs);
      assert KeepsKeys(ps[0], pkg);
      FoldKeepsKeys(ps[1..], pkg, next.0, next.1);
    }
  }

  /** A successful build holds every required and every optional key, as
      long as no plugin drops or adds one. */
  lemma BuiltRecordHasEveryKey(pkg: Record, env: Env)
    requires forall i :: 0 <= i < |env.plugins| ==> KeepsKeys(env.plugins[i], pkg)
    ensures BuildMetadata(pkg, env).Built? ==> BuildMetadata(pkg, env).record.Keys == RequiredKeys + OptionalKeys
  {
    if BuildMetadata(pkg, env).Built? {
      var base := BaseRecord(pkg, env).value;
      FoldKeepsKeys(env.plugins, pkg, base.0, base.1);
    }
  }
}

=== FILE: projection.dfy ===
/** `build_xml_dict` (ckanext/doi/lib/metadata.py:347-410): the projection of
    the metadata dict onto the dict the DataCite serialiser takes. Required
    fields are copied or defaulted, optional fields pass only when they have
    a value, dates are copied with their `date` stringified, and the IDoi
    plugins' xml hooks run last. */
module Projection {
  import opened PyValue
  import opened Environment
  import opened Fields
  import opened Metadata
  import Decimal
  import Text

  const SchemaVersion: string := "http://datacite.org/schema/kernel-4"

  /** The keys every projection starts with. */
  const XmlRequiredKeys: set<string> :=
    {"creators", "titles", "publisher", "publicationYear", "types", "schemaVersion"}

  /** `v is not None and len(v) > 0`, where a value without a length (the
      bare `except` around the test) counts as having none. */
  function HasValue(v: Value): (b: bool)
    ensures b <==> Len(v).Some? && Truthy(v)
    ensures b ==> v != Null
  {
    Len(v).Some? && Len(v).value > 0
  }

  /** The `types` entry: the metadata's resource type under the fixed general
      type `Dataset`. */
  function Types(resourceType: Value): (t: Value)
    ensures t.Dict? && |t.entries| == 2
    ensures Lookup(t.entries, "resourceType") == Some(resourceType)
    ensures Lookup(t.entries, "resourceTypeGeneral") == Some(Str("Dataset"))
  {
    var entries := [Field("resourceType", resourceType), Field("resourceTypeGeneral", Str("Dataset"))];
    LookupAt(entries, "resourceTypeGeneral", 1);
    Dict(entries)
  }

  /** A copy of one dates entry with its `date` replaced by `str(date)`. A
      value that is not a dict has no `items` (AttributeError); a dict without
      `date` raises KeyError. */
  function StringifyDate(entry: Value, render: Value -> string): (r: Py<Value>)
    ensures r.Ok? <==> IsDateEntry(entry)
    ensures r.Raise? ==> r.exc == (if entry.Dict? then KeyError else AttributeError)
    ensures r.Ok? ==>
      && r.value.Dict?
      && |r.value.entries| == |entry.entries|
      && (forall i :: 0 <= i < |entry.entries| ==> r.value.entries[i].0 == entry.entries[i].0)
      && Lookup(r.value.entries, "date") == Some(Str(Show(Lookup(entry.entries, "date").value, render)))
      && (forall k :: k != "date" ==> Lookup(r.value.entries, k) == Lookup(entry.entries, k))
  {
    if !entry.Dict? then Raise(AttributeError)
    else
      var date :- Subscript(entry, "date");
      var text := Str(Show(date, render));
      UpdateExisting(entry.entries, "date", text);
      Ok(Dict(Update(entry.entries, "date", text)))
  }

  /** The projected `dates`: every entry stringified, in order; the first
      entry that cannot be stringified raises out of the projection. */
  function StringifyDates(dates: Value, render: Value -> string): (r: Py<Value>)
    ensures Len(dates).None? ==> r == Raise(TypeError)
    ensures dates.List? || dates.Tuple? ==>
      (r.Ok? <==> forall i :: 0 <= i < |dates.items| ==> IsDateEntry(dates.items[i]))
    ensures Iterate(dates).Ok? ==>
      var entries := Iterate(dates).value;
      && (r.Ok? <==> forall i :: 0 <= i < |entries| ==> IsDateEntry(entries[i]))
      && (r.Ok? ==>
            && r.value.List? && |r.value.items| == |entries|
            && forall i :: 0 <= i < |entries| ==> StringifyDate(entries[i], render) == Ok(r.value.items[i]))
    ensures r.Ok? ==>
      && r.value.List?
      && |r.value.items| == Len(dates).value
      && (dates.List? || dates.Tuple? ==>
          forall i :: 0 <= i < |dates.items| ==> StringifyDate(dates.items[i], render) == Ok(r.value.items[i]))
  {
    var entries :- Iterate(dates);
    var copies :- MapAll(entries, e => StringifyDate(e, render));
    Ok(List(copies))
  }

  /** The required part of the xml dict. `creators` and `titles` default to
      an empty list only when the key is missing; the year is always a string. */
  function RequiredPart(md: Record, env: Env): (base: Record)
    ensures base.Keys == XmlRequiredKeys
    ensures base["creators"] == GetOr(md, "creators", EmptyList)
    ensures base["titles"] == GetOr(md, "titles", EmptyList)
    ensures base["publisher"] == Get(md, "publisher")
    ensures base["types"] == Types(Get(md, "resourceType"))
    ensures base["schemaVersion"] == Str(SchemaVersion)
    ensures base["publicationYear"].Str?
    ensures Get(md, "publicationYear").Str? ==> base["publicationYear"] == Get(md, "publicationYear")
    ensures Get(md, "publicationYear").Int? ==>
      && Decimal.IsIntLiteral(base["publicationYear"].s)
      && Decimal.IntValue(base["publicationYear"].s) == Get(md, "publicationYear").i
  {
    map[
      "types" := Types(Get(md, "resourceType")),
      "schemaVersion" := Str(SchemaVersion),
      "creators" := GetOr(md, "creators", EmptyList),
      "titles" := GetOr(md, "titles", EmptyList),
      "publisher" := Get(md, "publisher"),
      "publicationYear" := Str(Show(Get(md, "publicationYear"), env.render))]
  }

  /** The optional keys other than `dates` that have a value, copied as they are. */
  function PassedPart(md: Record): (passed: Record)
    ensures forall k :: k in passed <==> k in OptionalKeys && k != "dates" && HasValue(Get(md, k))
    ensures forall k :: k in passed ==> passed[k] == Get(md, k)
  {
    map k | k in OptionalKeys && k != "dates" && HasValue(Get(md, k)) :: Get(md, k)
  }

  /** No optional key collides with a key of the required part. */
  lemma PartsDisjoint()
    ensures XmlRequiredKeys !! OptionalKeys
  {
  }

  /** The required part, then the passed optional keys, then `dates` when it
      has a value: no key overwrites another. */
  function Assemble(base: Record, passed: Record, dates: Option<Value>): (r: Record)
    requires base.Keys == XmlRequiredKeys
    requires forall k :: k in passed ==> k in OptionalKeys && k != "dates"
    ensures XmlRequiredKeys <= r.Keys <= XmlRequiredKeys + OptionalKeys
    ensures forall k :: k in OptionalKeys ==> (k in r <==> k in passed || (k == "dates" && dates.Some?))
    ensures forall k :: k in passed ==> r[k] == passed[k]
    ensures dates.Some? ==> r["dates"] == dates.value
    ensures forall k :: k in XmlRequiredKeys ==> r[k] == base[k]
  {
    PartsDisjoint();
    if dates.Some? then base + passed + map["dates" := dates.value] else base + passed
  }

  /** The xml dict before the plugins run. */
  function ProjectBase(md: Record, env: Env): (r: Py<Record>)
    ensures r.Ok? <==> !HasValue(Get(md, "dates")) || StringifyDates(Get(md, "dates"), env.render).Ok?
    ensures r.Ok? ==> XmlRequiredKeys <= r.value.Keys <= XmlRequiredKeys + OptionalKeys
    ensures r.Ok? ==> forall k :: k in OptionalKeys ==> (k in r.value <==> HasValue(Get(md, k)))
    ensures r.Ok? ==> forall k :: k in OptionalKeys && k != "dates" && k in r.value ==> r.value[k] == Get(md, k)
    ensures r.Ok? && "dates" in r.value ==> Ok(r.value["dates"]) == StringifyDates(Get(md, "dates"), env.render)
    ensures r.Ok? ==> forall k :: k in XmlRequiredKeys ==> r.value[k] == RequiredPart(md, env)[k]
  {
    var base := RequiredPart(md, env);
    var passed := PassedPart(md);
    var dates := Get(md, "dates");
    if !HasValue(dates) then Ok(Assemble(base, passed, None))
    else
      var copies :- StringifyDates(dates, env.render);
      Ok(Assemble(base, passed, Some(copies)))
  }

  /** The plugins' `build_xml_dict` hooks, applied left to right. */
  function FoldXml(ps: seq<Plugin>, md: Record, xml: Record): (r: Record)
    ensures |ps| == 0 ==> r == xml
    ensures |ps| > 0 ==> r == ps[|ps| - 1].onXml(md, FoldXml(ps[..|ps| - 1], md, xml))
    decreases |ps|
  {
    if |ps| == 0 then xml
    else
      var r := FoldXml(ps[1..], md, ps[0].onXml(md, xml));
      assert |ps| > 1 ==> ps[1..][..|ps| - 2] == ps[..|ps| - 1][1..] && ps[1..][|ps| - 2] == ps[|ps| - 1];
      r
  }

  /** Running two plugin lists one after the other is running their
      concatenation. */
  lemma {:induction false} FoldXmlAppend(ps: seq<Plugin>, qs: seq<Plugin>, md: Record, xml: Record)
    ensures FoldXml(ps + qs, md, xml) == FoldXml(qs, md, FoldXml(ps, md, xml))
    decreases |ps|
  {
    if |ps| == 0 {
      assert ps + qs == qs;
    } else {
      assert (ps + qs)[0] == ps[0] && (ps + qs)[1..] == ps[1..] + qs;
      FoldXmlAppend(ps[1..], qs, md, ps[0].onXml(md, xml));
    }
  }

  function BuildXml(md: Record, env: Env): (r: Py<Record>)
    ensures r.Ok? <==> ProjectBase(md, env).Ok?
    ensures r.Raise? ==> r == ProjectBase(md, env)
    ensures r.Ok? ==> r.value == FoldXml(env.plugins, md, ProjectBase(md, env).value)
  {
    var xml :- ProjectBase(md, env);
    Ok(FoldXml(env.plugins, md, xml))
  }

  /** Each projected dates entry is the original entry with the same keys in
      the same order, `date` replaced by its string form, and every other
      key's value untouched. */
  lemma DatesProjection(md: Record, env: Env, i: nat)
    ensures
      (&& ProjectBase(md, env).Ok? && "dates" in ProjectBase(md, env).value
       && Get(md, "dates").List? && i < |Get(md, "dates").items|) ==>
      var entry := Get(md, "dates").items[i];
      var copy := ProjectBase(md, env).value["dates"].items[i];
      && entry.Dict? && copy.Dict?
      && |copy.entries| == |entry.entries|
      && (forall j :: 0 <= j < |entry.entries| ==> copy.entries[j].0 == entry.entries[j].0)
      && Lookup(copy.entries, "date") == Some(Str(Show(Lookup(entry.entries, "date").value, env.render)))
      && (forall k :: k != "date" ==> Lookup(copy.entries, k) == Lookup(entry.entries, k))
  {
    var dates := Get(md, "dates");
    if ProjectBase(md, env).Ok? && "dates" in ProjectBase(md, env).value && dates.List? && i < |dates.items| {
      assert StringifyDate(dates.items[i], env.render) == Ok(ProjectBase(md, env).value["dates"].items[i]);
    }
  }

  /** Without plugins, the metadata dict `build_metadata_dict` returns always
      projects: every dates entry it built has a `date`. */
  lemma BuiltMetadataProjects(pkg: Record, env: Env)
    requires env.plugins == []
    ensures BuildMetadata(pkg, env).Built? ==> BuildXml(BuildMetadata(pkg, env).record, env).Ok?
  {
    if BuildMetadata(pkg, env).Built? {
      var d := DeriveFields(pkg, env).value;
      var md := BuildMetadata(pkg, env).record;
      assert md == MetadataOf(d);
      assert Get(md, "dates") == d.dates == Dates(pkg, env);
    }
  }

  /** Without plugins, the projected year is the metadata's year when that
      is a string, and an integer year written in decimal. */
  lemma ProjectedYearOf(md: Record, env: Env)
    requires env.plugins == []
    ensures BuildXml(md, env).Ok? ==>
      var year := Get(md, "publicationYear");
      && (year.Str? ==> BuildXml(md, env).value["publicationYear"] == year)
      && (year.Int? ==> BuildXml(md, env).value["publicationYear"] == Str(Decimal.IntToDecimal(year.i)))
  {
    if BuildXml(md, env).Ok? {
      var shown := RequiredPart(md, env)["publicationYear"];
      assert BuildXml(md, env).value["publicationYear"] == shown;
      if Get(md, "publicationYear").Int? {
        Decimal.IntRoundTrip(shown.s);
      }
    }
  }

  /** The year a plugin-free build stores is the one derived from the package. */
  lemma BuiltYear(pkg: Record, env: Env)
    requires env.plugins == []
    ensures BuildMetadata(pkg, env).Built? ==>
      Get(BuildMetadata(pkg, env).record, "publicationYear") == PublicationYear(pkg, env.currentYear).value
  {
    if BuildMetadata(pkg, env).Built? {
      assert BuildMetadata(pkg, env).record == MetadataOf(DeriveFields(pkg, env).value);
    }
  }

  /** The projected year of a metadata dict built without plugins: the
      first four characters of `doi_date_published` when they are all
      digits, and otherwise the current year written in decimal. */
  lemma ProjectedYear(pkg: Record, env: Env)
    requires env.plugins == []
    ensures BuildMetadata(pkg, env).Built? ==>
      var xml := BuildXml(BuildMetadata(pkg, env).record, env);
      var date := Get(pkg, "doi_date_published");
      && xml.Ok?
      && (date.Str? && Decimal.IsDecimal(Text.Take(date.s, 4)) ==>
          xml.value["publicationYear"] == Str(Text.Take(date.s, 4)))
      && (!(date.Str? && Decimal.IsDecimal(Text.Take(date.s, 4))) ==>
          xml.value["publicationYear"] == Str(Decimal.IntToDecimal(env.currentYear)))
  {
    BuiltMetadataProjects(pkg, env);
    BuiltYear(pkg, env);
    if BuildMetadata(pkg, env).Built? {
      ProjectedYearOf(BuildMetadata(pkg, env).record, env);
    }
  }
}

=== FILE: scenarios.dfy ===
/** Concrete packages taken through the model, written out value by value. */
module Scenarios {
  import opened PyValue
  import opened Decimal
  import opened Text
  import opened Environment
  import opened Fields

  /** A full `YYYY-MM-DD` date gives its year as a string. */
  lemma YearFromIsoDate(currentYear: int)
    ensures PublicationYear(map["doi_date_published" := Str("2021-05-10")], currentYear) == Ok(Str("2021"))
  {
    var pkg := map["doi_date_published" := Str("2021-05-10")];
    assert Get(pkg, "doi_date_published").s[..4] == "2021";
  }

  /** A date whose first four characters are not all digits, or no date at
      all, gives the current year as an integer. */
  lemma YearFallsBackToCurrentYear(currentYear: int)
    ensures PublicationYear(map["doi_date_published" := Str("abcd-05-10")], currentYear) == Ok(Int(currentYear))
    ensures PublicationYear(map[], currentYear) == Ok(Int(currentYear))
  {
    var pkg := map["doi_date_published" := Str("abcd-05-10")];
    assert !IsDigit(Take(Get(pkg, "doi_date_published").s, 4)[0]);
  }

  /** A short all-digit date is taken whole: `'202'[:4]` is `'202'`. */
  lemma YearFromShortDate(currentYear: int)
    ensures PublicationYear(map["doi_date_published" := Str("202")], currentYear) == Ok(Str("202"))
  {
  }

  /** A date that is neither None nor a string escapes the builder. */
  lemma YearFromIntegerDateRaises(currentYear: int)
    ensures PublicationYear(map["doi_date_published" := Int(2021)], currentYear) == Raise(TypeError)
  {
  }

  const ThreeResources: Record := map["resources" := List([
    Dict([Field("size", Int(1024))]),
    Dict([Field("size", Int(2048))]),
    Dict([Field("size", Null)])])]

  /** Sizes of 1024 and 2048 bytes and a resource whose size is None add up
      to 3072 bytes, */
  lemma ThreeResourcesTotal()
    ensures TotalSize(ThreeResources) == Ok(3072)
  {
    var resources := GetOr(ThreeResources, "resources", EmptyList).items;
    assert SizeOf(resources[0]) == Ok(Int(1024));
    assert SizeOf(resources[1]) == Ok(Int(2048));
    assert SizeOf(resources[2]) == Ok(Int(0));
    var sizes := MapAll(resources, SizeOf);
    assert sizes.Ok? && |sizes.value| == 3;
    assert sizes.value == [Int(1024), Int(2048), Int(0)];
    SumOfInts([Int(1024), Int(2048), Int(0)], [1024, 2048, 0]);
  }

  /** which the sizes report as `3 kb`. */
  lemma SizesAddUp()
    ensures Sizes(ThreeResources) == Derived(List([Str("3 kb")]), None)
  {
    ThreeResourcesTotal();
    assert Kilobytes(3072) == 3;
    assert DigitChar(3) == '3';
    assert IntToDecimal(3) == "3";
    assert SizeText(3072) == "3 kb";
  }

  /** A size given as a string cannot be summed: the error is recorded and
      the sizes stay `[]`. */
  lemma StringSizeIsAnError()
    ensures Sizes(map["resources" := List([Dict([Field("size", Str("12"))])])]).error == Some(TypeError)
    ensures Sizes(map["resources" := List([Dict([Field("size", Str("12"))])])]).value == EmptyList
  {
    var pkg := map["resources" := List([Dict([Field("size", Str("12"))])])];
    var resources := GetOr(pkg, "resources", EmptyList).items;
    assert SizeOf(resources[0]) == Ok(Str("12"));
    var sizes := MapAll(resources, SizeOf);
    assert sizes.Ok? && sizes.value == [Str("12")];
  }

  /** Wikidata funder identifiers are reported as `Other`; Crossref ones pass. */
  lemma WikidataBecomesOther()
    ensures FunderIdentifierType(Str("Wikidata")) == Str("Other")
    ensures FunderIdentifierType(Str("")) == Str("Other")
    ensures FunderIdentifierType(Str("Crossref Funder ID")) == Str("Crossref Funder ID")
  {
  }

  /** CC-BY-4.0 international is described by its SPDX identifier whatever
      the register says; a package with no license at all gets `rights: ''`. */
  lemma RightsExamples(licenses: map<string, Value>)
    ensures RightsList(map["license_id" := Str(CcBy)], licenses) == List([SpdxCcBy])
    ensures RightsList(map[], licenses) == List([Dict([Field("rights", Str(""))])])
    ensures RightsList(map["license_id" := Null, "license" := Str(CcBy)], licenses) == List([SpdxCcBy])
  {
  }

  const TaggedPackage: Record :=
    map["tag_string" := Str("b,a,,b"), "tags" := List([Dict([Field("name", Str("c"))])])]

  /** `'b,a,,b'.split(',')` keeps the empty piece. */
  lemma SplitExample()
    ensures Split("b,a,,b", ',') == ["b", "a", "", "b"]
  {
    assert "b,a,,b" == "b" + [','] + "a,,b";
    assert "a,,b" == "a" + [','] + ",b";
    assert ",b" == "" + [','] + "b";
    SplitPiece("b", "a,,b", ',');
    SplitPiece("a", ",b", ',');
    SplitPiece("", "b", ',');
    SplitWhole("b", ',');
  }

  /** The split pieces come first, then the names of the tag dicts. */
  lemma TaggedPackageTags()
    ensures TagList(TaggedPackage) == Ok([Str("b"), Str("a"), Str(""), Str("b"), Str("c")])
  {
    SplitExample();
    var entries := GetOr(TaggedPackage, "tags", List([])).items;
    assert TagName(entries[0]) == Ok(Str("c"));
    var names := MapAll(entries, TagName);
    assert names.Ok? && names.value == [Str("c")];
    var parts := Split("b,a,,b", ',');
    assert GetOr(TaggedPackage, "tag_string", Str("")) == Str("b,a,,b");
    var front := seq(|parts|, i requires 0 <= i < |parts| => Str(parts[i]));
    assert TagList(TaggedPackage) == Ok(front + names.value);
    assert front == [Str("b"), Str("a"), Str(""), Str("b")];
    assert front + names.value == [Str("b"), Str("a"), Str(""), Str("b"), Str("c")];
  }

  /** Tags from both sources are merged, emptied of `''`, deduplicated and
      sorted: `'b,a,,b'` with the tag dict `{'name': 'c'}` gives a, b, c. */
  lemma SubjectsExample()
    ensures Subjects(TaggedPackage) == Derived(List(SubjectEntries(["a", "b", "c"])), None)
  {
    var tags := ["b", "a", "", "b", "c"];
    TaggedPackageTags();
    var strings := TagStrings(TaggedPackage);
    assert strings.Ok? && |strings.value| == 5;
    assert strings.value == tags;
    assert LexLess("a", "b") && LexLess("b", "c") && LexLess("a", "c");
    SubjectsAreSortedTags(TaggedPackage, tags, ["a", "b", "c"]);
  }
}

=== FILE: text.dfy ===
/** String operations the builder relies on: slicing a prefix, `str.split`
    on one separator character, and `sorted` over a set of strings (Python
    compares strings by code point, lexicographically). */
module Text {

  /** `s[:n]` in Python: the first `n` characters, or all of `s` if it is shorter. */
  function Take(s: string, n: nat): (r: string)
    ensures |r| == if |s| < n then |s| else n
    ensures r <= s
  {
    if |s| < n then s else s[..n]
  }

  /** `sep.join(parts)` for a one-character separator. */
  function Join(parts: seq<string>, sep: char): string
    requires |parts| > 0
  {
    if |parts| == 1 then parts[0] else parts[0] + [sep] + Join(parts[1..], sep)
  }

  /** `s.split(sep)` for a one-character separator: every occurrence of `sep`
      cuts, so `k` separators give `k + 1` pieces, empty ones included. */
  function Split(s: string, sep: char): (parts: seq<string>)
    ensures |parts| > 0
    ensures forall i :: 0 <= i < |parts| ==> sep !in parts[i]
    decreases |s|
  {
    if |s| == 0 then [""]
    else
      var rest := Split(s[1..], sep);
      if s[0] == sep then [""] + rest
      else [[s[0]] + rest[0]] + rest[1..]
  }

  /** Joining the pieces of a split with the separator gives back the string. */
  lemma {:induction false} JoinSplit(s: string, sep: char)
    ensures Join(Split(s, sep), sep) == s
    decreases |s|
  {
    if |s| > 0 {
      var rest := Split(s[1..], sep);
      JoinSplit(s[1..], sep);
      if s[0] == sep {
        assert Split(s, sep)[1..] == rest;
      } else {
        var parts := Split(s, sep);
        assert parts[1..] == rest[1..];
        if |rest| > 1 {
          assert Join(rest, sep) == rest[0] + [sep] + Join(rest[1..], sep);
          assert Join(parts, sep) == [s[0]] + rest[0] + [sep] + Join(rest[1..], sep);
        }
        assert s == [s[0]] + s[1..];
      }
    }
  }

  /** A piece without separators followed by a separator is split off whole. */
  lemma {:induction false} SplitPiece(p: string, rest: string, sep: char)
    requires sep !in p
    ensures Split(p + [sep] + rest, sep) == [p] + Split(rest, sep)
    decreases |p|
  {
    if |p| == 0 {
      assert p + [sep] + rest == [sep] + rest;
      assert ([sep] + rest)[1..] == rest;
    } else {
      var s := p + [sep] + rest;
      assert s[1..] == p[1..] + [sep] + rest;
      SplitPiece(p[1..], rest, sep);
      assert [p[0]] + p[1..] == p;
    }
  }

  /** A string without separators splits into itself alone. */
  lemma {:induction false} SplitWhole(p: string, sep: char)
    requires sep !in p
    ensures Split(p, sep) == [p]
    decreases |p|
  {
    if |p| > 0 {
      SplitWhole(p[1..], sep);
      assert [p[0]] + p[1..] == p;
    }
  }

  /** Splitting a join of separator-free pieces gives back the pieces. */
  lemma {:induction false} SplitJoin(parts: seq<string>, sep: char)
    requires |parts| > 0
    requires forall i :: 0 <= i < |parts| ==> sep !in parts[i]
    ensures Split(Join(parts, sep), sep) == parts
    decreases |parts|
  {
    if |parts| == 1 {
      SplitWhole(parts[0], sep);
    } else {
      SplitJoin(parts[1..], sep);
      SplitPiece(parts[0], Join(parts[1..], sep), sep);
      assert [parts[0]] + parts[1..] == parts;
    }
  }

  /** Python's `<` on strings: code-point lexicographic order. */
  predicate LexLess(a: string, b: string)
    decreases |a|
  {
    if |b| == 0 then false
    else if |a| == 0 then true
    else if a[0] != b[0] then a[0] < b[0]
    else LexLess(a[1..], b[1..])
  }

  lemma {:induction false} LexIrreflexive(a: string)
    ensures !LexLess(a, a)
    decreases |a|
  {
    if |a| > 0 {
      LexIrreflexive(a[1..]);
    }
  }

  lemma {:induction false} LexTransitive(a: string, b: string, c: string)
    requires LexLess(a, b) && LexLess(b, c)
    ensures LexLess(a, c)
    decreases |a|
  {
    if |a| > 0 && a[0] == b[0] && b[0] == c[0] {
      LexTransitive(a[1..], b[1..], c[1..]);
    }
  }

  lemma {:induction false} LexTotal(a: string, b: string)
    requires a != b
    ensures LexLess(a, b) || LexLess(b, a)
    decreases |a|
  {
    if |a| > 0 && |b| > 0 && a[0] == b[0] {
      assert a == [a[0]] + a[1..] && b == [b[0]] + b[1..];
      LexTotal(a[1..], b[1..]);
    }
  }

  lemma LexAsymmetric(a: string, b: string)
    requires LexLess(a, b)
    ensures !LexLess(b, a)
  {
    if LexLess(b, a) {
      LexTransitive(a, b, a);
      LexIrreflexive(a);
    }
  }

  /** Strictly increasing: sorted, and therefore without duplicates. */
  predicate StrictlySorted(ss: seq<string>)
  {
    forall i, j :: 0 <= i < j < |ss| ==> LexLess(ss[i], ss[j])
  }

  /** Adds `t` to a strictly sorted sequence at its place, unless present. */
  function Insert(ss: seq<string>, t: string): (r: seq<string>)
    requires StrictlySorted(ss)
    ensures StrictlySorted(r)
    ensures forall x :: x in r <==> x in ss || x == t
    decreases |ss|
  {
    if |ss| == 0 then [t]
    else if t == ss[0] then ss
    else if LexLess(t, ss[0]) then
      assert forall j :: 0 < j < |ss| ==> LexLess(t, ss[j]) by {
        forall j | 0 < j < |ss| { LexTransitive(t, ss[0], ss[j]); }
      }
      [t] + ss
    else
      var rest := Insert(ss[1..], t);
      LexTotal(t, ss[0]);
      assert forall x :: x in rest ==> LexLess(ss[0], x);
      [ss[0]] + rest
  }

  /** `sorted({t for t in tags if t != ''})`. */
  function SortedTags(tags: seq<string>): (r: seq<string>)
    ensures StrictlySorted(r)
    ensures forall x :: x in r <==> x in tags && x != ""
    decreases |tags|
  {
    if |tags| == 0 then []
    else
      var init := tags[..|tags| - 1];
      var t := tags[|tags| - 1];
      assert tags == init + [t];
      var rest := SortedTags(init);
      if t == "" then rest else Insert(rest, t)
  }

  /** Two strictly sorted sequences with the same elements are equal: the
      sorted enumeration of a set of strings is unique. */
  lemma {:induction false} StrictlySortedUnique(a: seq<string>, b: seq<string>)
    requires StrictlySorted(a) && StrictlySorted(b)
    requires forall x :: x in a <==> x in b
    ensures a == b
    decreases |a|
  {
    assert |b| > 0 ==> b[0] in a;
    if |a| > 0 {
      assert a[0] in b;
      assert |b| > 0;
      if a[0] != b[0] {
        assert b[0] in a;
        var j :| 0 <= j < |b| && b[j] == a[0];
        var i :| 0 <= i < |a| && a[i] == b[0];
        assert LexLess(b[0], a[0]);
        assert LexLess(a[0], b[0]);
        LexAsymmetric(a[0], b[0]);
        assert false;
      }
      forall x | x in a[1..]
        ensures x in b[1..]
      {
        var i :| 1 <= i < |a| && a[i] == x;
        LexIrreflexive(a[0]);
        assert x != b[0];
        assert x in a;
        var j :| 0 <= j < |b| && b[j] == x;
        assert b[1..][j - 1] == x;
      }
      forall x | x in b[1..]
        ensures x in a[1..]
      {
        var j :| 1 <= j < |b| && b[j] == x;
        LexIrreflexive(b[0]);
        assert x != a[0];
        assert x in b;
        var i :| 0 <= i < |a| && a[i] == x;
        assert a[1..][i - 1] == x;
      }
      StrictlySortedUnique(a[1..], b[1..]);
      assert a == [a[0]] + a[1..] && b == [b[0]] + b[1..];
    }
  }
}

=== FILE: value.dfy ===
/** The loosely typed Python values a CKAN package dict carries, the
    exceptions the metadata builder raises or catches, and the few Python
    built-ins it applies to such values (`d[k]`, `d.get(k)`, truthiness,
    `len`, iteration, `str`). */
module PyValue {
  import opened Decimal

  datatype Option<+T> = None | Some(value: T)

  /** The exception classes that matter to the builder. `MetadataError` is the
      extension's own `DOIMetadataException`; `Foreign` is anything a
      collaborator (a parser, a date helper, the locale lookup) raises. */
  datatype Exc =
    | KeyError
    | TypeError
    | ValueError
    | IndexError
    | AttributeError
    | MetadataError
    | Foreign(name: string)

  /** A Python computation: a value, or a raised exception. */
  datatype Py<+T> = Ok(value: T) | Raise(exc: Exc) {
    predicate IsFailure() { Raise? }

    function PropagateFailure<U>(): Py<U>
      requires Raise?
    {
      Raise(exc)
    }

    function Extract(): T
      requires Ok?
    {
      value
    }
  }

  /** A Python value. Dicts keep their insertion order, as Python's do; a
      `Tuple` is iterable like a list but is not `type(x) == list`;
      `Opaque` stands for any other object (a float, a set, a datetime), which
      the builder only passes along or hands to a collaborator. */
  datatype Value =
    | Null
    | Bool(b: bool)
    | Int(i: int)
    | Str(s: string)
    | List(items: seq<Value>)
    | Tuple(items: seq<Value>)
    | Dict(entries: seq<(Value, Value)>)
    | Opaque(kind: string)

  /** A dict entry under a string key. */
  function Field(key: string, v: Value): (Value, Value)
  {
    (Str(key), v)
  }

  /** The value stored under the string key `key`. */
  function Lookup(entries: seq<(Value, Value)>, key: string): (r: Option<Value>)
    ensures r.Some? <==> exists i :: 0 <= i < |entries| && entries[i].0 == Str(key)
    ensures r.Some? ==> exists i :: 0 <= i < |entries| && entries[i] == (Str(key), r.value)
    decreases |entries|
  {
    if |entries| == 0 then None
    else if entries[0].0 == Str(key) then Some(entries[0].1)
    else
      var r := Lookup(entries[1..], key);
      assert forall i :: 1 <= i < |entries| ==> entries[i] == entries[1..][i - 1];
      r
  }

  /** The first entry under `key` is the one `Lookup` finds. */
  lemma {:induction false} LookupAt(entries: seq<(Value, Value)>, key: string, i: nat)
    requires i < |entries| && entries[i].0 == Str(key)
    requires forall j :: 0 <= j < i ==> entries[j].0 != Str(key)
    ensures Lookup(entries, key) == Some(entries[i].1)
    decreases i
  {
    if i > 0 {
      LookupAt(entries[1..], key, i - 1);
    }
  }

  /** Entries in front that do not hold `key` do not change what `Lookup` finds. */
  lemma {:induction false} LookupPast(head: seq<(Value, Value)>, tail: seq<(Value, Value)>, key: string)
    requires forall j :: 0 <= j < |head| ==> head[j].0 != Str(key)
    ensures Lookup(head + tail, key) == Lookup(tail, key)
    decreases |head|
  {
    if |head| > 0 {
      assert (head + tail)[0] == head[0] && head[0].0 != Str(key);
      assert (head + tail)[1..] == head[1..] + tail;
      LookupPast(head[1..], tail, key);
      assert Lookup(head + tail, key) == Lookup((head + tail)[1..], key);
    } else {
      assert head + tail == tail;
    }
  }

  /** Every key in `keys` can be read from `v` with `v[key]`. */
  predicate HasKeys(v: Value, keys: seq<string>)
  {
    v.Dict? && forall i :: 0 <= i < |keys| ==> Lookup(v.entries, keys[i]).Some?
  }

  /** `[v[k] for k in keys]`, evaluated key by key: the first key `v` cannot
      give raises. */
  function ReadKeys(v: Value, keys: seq<string>): (r: Py<seq<Value>>)
    ensures |keys| > 0 ==> (r.Ok? <==> HasKeys(v, keys))
    ensures r.Ok? ==> |r.value| == |keys| && forall i :: 0 <= i < |keys| ==> Lookup(v.entries, keys[i]) == Some(r.value[i])
    ensures r.Raise? ==> r.exc == (if v.Dict? then KeyError else TypeError)
  {
    var p := MapUntilFailure(keys, k => Subscript(v, k));
    if p.stop.None? then Ok(p.done) else Raise(p.stop.value)
  }

  /** `d[key] = v` for a key already in the dict: the entry keeps its place. */
  function Update(entries: seq<(Value, Value)>, key: string, v: Value): (r: seq<(Value, Value)>)
    decreases |entries|
  {
    if |entries| == 0 then [Field(key, v)]
    else if entries[0].0 == Str(key) then [Field(key, v)] + entries[1..]
    else [entries[0]] + Update(entries[1..], key, v)
  }

  /** Assigning an existing key keeps the dict's length and key order, stores
      the new value under that key, and leaves every other key's value alone. */
  lemma {:induction false} UpdateExisting(entries: seq<(Value, Value)>, key: string, v: Value)
    requires Lookup(entries, key).Some?
    ensures |Update(entries, key, v)| == |entries|
    ensures forall i :: 0 <= i < |entries| ==> Update(entries, key, v)[i].0 == entries[i].0
    ensures Lookup(Update(entries, key, v), key) == Some(v)
    ensures forall k :: k != key ==> Lookup(Update(entries, key, v), k) == Lookup(entries, k)
    decreases |entries|
  {
    var r := Update(entries, key, v);
    if entries[0].0 != Str(key) {
      UpdateExisting(entries[1..], key, v);
      assert r[1..] == Update(entries[1..], key, v);
      forall k | k != key
        ensures Lookup(r, k) == Lookup(entries, k)
      {
        if entries[0].0 != Str(k) {
          assert Lookup(r, k) == Lookup(r[1..], k);
        }
      }
    } else {
      assert r[1..] == entries[1..];
    }
  }

  /** `v[key]` for a string key: a dict yields the entry or raises KeyError;
      every other value raises TypeError (strings, lists and tuples take only
      integer indices; the rest are not subscriptable). */
  function Subscript(v: Value, key: string): (r: Py<Value>)
    ensures r.Ok? <==> v.Dict? && Lookup(v.entries, key).Some?
    ensures r.Ok? ==> Lookup(v.entries, key) == Some(r.value)
    ensures r.Raise? ==> r.exc == (if v.Dict? then KeyError else TypeError)
  {
    match v
    case Dict(es) =>
      (match Lookup(es, key)
       case Some(x) => Ok(x)
       case None => Raise(KeyError))
    case _ => Raise(TypeError)
  }

  /** `v.get(key)`: only dicts have `get`; a missing key gives None. */
  function DictGet(v: Value, key: string): (r: Py<Value>)
    ensures r.Ok? <==> v.Dict?
    ensures r.Ok? ==> (r.value == Null || Lookup(v.entries, key) == Some(r.value))
    ensures r.Ok? && Lookup(v.entries, key).Some? ==> Lookup(v.entries, key) == Some(r.value)
    ensures r.Raise? ==> r.exc == AttributeError
  {
    match v
    case Dict(es) =>
      (match Lookup(es, key)
       case Some(x) => Ok(x)
       case None => Ok(Null))
    case _ => Raise(AttributeError)
  }

  /** `len(v)`, or None for values without a length. */
  function Len(v: Value): Option<nat>
  {
    match v
    case Str(s) => Some(|s|)
    case List(xs) => Some(|xs|)
    case Tuple(xs) => Some(|xs|)
    case Dict(es) => Some(|es|)
    case _ => None
  }

  /** `bool(v)`: None, False, 0 and empty containers are false. */
  function Truthy(v: Value): (r: bool)
    ensures Len(v).Some? ==> (r <==> Len(v).value > 0)
    ensures v == Null ==> !r
  {
    match v
    case Null => false
    case Bool(b) => b
    case Int(i) => i != 0
    case Opaque(_) => true
    case _ => Len(v).value > 0
  }

  /** `for x in v`: lists and tuples give their items, strings their
      characters, dicts their keys; anything else raises TypeError. */
  function Iterate(v: Value): (r: Py<seq<Value>>)
    ensures r.Ok? <==> Len(v).Some?
    ensures r.Ok? ==> |r.value| == Len(v).value
    ensures r.Raise? ==> r.exc == TypeError
    ensures v.List? || v.Tuple? ==> r == Ok(v.items)
    ensures v.Str? ==> r.Ok? && forall i :: 0 <= i < |v.s| ==> r.value[i] == Str([v.s[i]])
    ensures v.Dict? ==> r.Ok? && forall i :: 0 <= i < |v.entries| ==> r.value[i] == v.entries[i].0
  {
    match v
    case List(xs) => Ok(xs)
    case Tuple(xs) => Ok(xs)
    case Str(s) => Ok(seq(|s|, i requires 0 <= i < |s| => Str([s[i]])))
    case Dict(es) => Ok(seq(|es|, i requires 0 <= i < |es| => es[i].0))
    case _ => Raise(TypeError)
  }

  /** `str(v)`. None, booleans, integers and strings render as Python renders
      them; other values are rendered by `render`, which stands for their
      `__str__`. */
  function Show(v: Value, render: Value -> string): (r: string)
    ensures v.Str? ==> r == v.s
    ensures v.Int? ==> IsIntLiteral(r) && IntValue(r) == v.i
    ensures v == Null ==> r == "None"
  {
    match v
    case Null => "None"
    case Bool(b) => if b then "True" else "False"
    case Int(i) => IntToDecimal(i)
    case Str(s) => s
    case _ => render(v)
  }

  /** What is left of a `for` loop whose body may raise: the results of the
      iterations that completed, and the exception that ended the loop early. */
  datatype Partial = Partial(done: seq<Value>, stop: Option<Exc>)

  /** Runs `f` over `xs` in order, stopping at the first exception. The loops
      that append inside a `try` keep what `done` holds when they stop. */
  function MapUntilFailure<T>(xs: seq<T>, f: T -> Py<Value>): (r: Partial)
    ensures |r.done| <= |xs|
    ensures forall i :: 0 <= i < |r.done| ==> f(xs[i]) == Ok(r.done[i])
    ensures r.stop.None? ==> |r.done| == |xs|
    ensures r.stop.Some? ==> |r.done| < |xs| && f(xs[|r.done|]) == Raise(r.stop.value)
    decreases |xs|
  {
    if |xs| == 0 then Partial([], None)
    else
      match f(xs[0])
      case Raise(e) => Partial([], Some(e))
      case Ok(v) =>
        var rest := MapUntilFailure(xs[1..], f);
        Partial([v] + rest.done, rest.stop)
  }

  /** Runs `f` over all of `xs`; the first exception aborts the whole map. */
  function MapAll<T>(xs: seq<T>, f: T -> Py<Value>): (r: Py<seq<Value>>)
    ensures r.Ok? <==> forall i :: 0 <= i < |xs| ==> f(xs[i]).Ok?
    ensures r.Ok? ==> |r.value| == |xs| && forall i :: 0 <= i < |xs| ==> f(xs[i]) == Ok(r.value[i])
  {
    var p := MapUntilFailure(xs, f);
    if p.stop.None? then Ok(p.done) else Raise(p.stop.value)
  }
}
